=== FILE: README.md ===
# BrightScript layout printer — a Dafny model

This project models `PrettierVisitor`, the core of a prettier plugin for
BrightScript. The printer takes a parsed syntax tree and builds a prettier
layout document (a `Doc`). It never measures widths and never renders text:
it only decides which document pieces to build, in which order, and where
trailing comments go.

The model has these parts:

- `Ast` — a syntax node is a `type` tag, a map of named slots and its raw source text.
  A slot is absent or falsy, a string, one child node, or an array of children.
- `Docs` — the layout document: the prettier builders (`Text`, `Concat`, `Group`,
  `Indent`, `Join`, `Line`, `SoftLine`, `HardLine`, `LineSuffix`). It also has three
  constructors for the plain JavaScript values the code hands to those builders:
  a falsy value (`Missing`), an array (`List`) and a raw node (`Raw`).
  This module also holds JavaScript truthiness, `value || other`, and `asArray`.
- `Config` — the printer's options: the `shortPrint` flag, the slot registry
  (`visitorKeys`) and the `capitalize` string function. The last two come from
  packages outside the model, so they are parameters.
- `Kinds` — the formatter methods the printer declares, and the lookup of a
  formatter by its node tag (`this[type]`).
- `Comments` — `Comment`, `EmptyStatement` and the `tail` policy that appends a
  trailing comment as a line suffix.
- `Merge` — `mergeOperands` and `binary`: flattened operator chains are rebuilt
  as `left, op1, right1, op2, right2, …`.
- `Layout` — the document each formatter builds from its visited slots.
- `Visitor` — the generic dispatcher `visit`, the keyed record it builds
  (`zipObject`, where the last duplicate key wins), and the dispatch from a
  node kind to its formatter.
  Results are `Result<Option<Doc>, Fault>`:
  - `None` means the method returns `undefined`.
  - `Fault` is a JavaScript `TypeError`. `NoRecord` covers destructuring the
    `null` that `visit` returns for an untyped node, and `visit` reading `type`
    of the `undefined` counter of a `for` that has none. `NotAString` is a
    non-string unary operator reaching `toLowerCase`. A formatter fails exactly
    when one of the visits it makes fails (Visitor.Destructure, Visitor.VisitSlot,
    Visitor.IdentifierOf), or for the unary case (VisitorProperties.UnaryKindFormat).
- `Dispatch` — for each formatter that builds its document from the visited
  record alone, the slots it destructures and the layout it hands them to.
- `VisitorProperties` and `Preservation` — properties that span several members.
  `Preservation` shows that each formatter it covers keeps every child it is
  given, and that each formatter that calls `tail` prints the node's trailing
  comment when there is one. The formatters that do not call `tail` drop it.

## Model

| member | source | states |
|---|---|---|
| Ast.Get | src/Visitor.ts:410-414 | reading a slot the node lacks gives `undefined`; a present slot gives its stored value |
| Ast.RawLength | src/Visitor.ts:367 | `(x && x.length) \|\| 0`: 0 for a falsy slot or a single child node (which has no length), and the array's length for an array of children |
| Docs.Or | src/Visitor.ts:187 | `a \|\| b` is `a` when `a` is truthy and `b` otherwise |
| Docs.AsArray | src/Visitor.ts:448-453 | a falsy value gives `[]`, an array is returned as it is, any other value is wrapped as a one-element array |
| Docs.RawValue | src/Visitor.ts:410-412 | a raw slot value is truthy exactly when the slot is; a falsy slot is handed on unchanged and a string becomes text |
| Strings.Upper | src/Visitor.ts:9 | `toUpperCase` keeps the length and maps exactly the letters a-z to A-Z |
| Strings.Lower | src/Visitor.ts:329 | `toLowerCase` keeps the length and maps exactly the letters A-Z to a-z |
| Strings.UpperFixedIffNoLower | src/Visitor.ts:9 | a tag equals its upper-case form exactly when it contains no lower-case letter |
| Config.NewEnv | src/Visitor.ts:13-20 | `shortPrint` is on exactly when the options have a `shortPrint` key, whatever its value; the registry is kept |
| Kinds.Find | src/Visitor.ts:417 | the formatter found for a tag is one of the declared methods and has that name; no result means no declared method has that name |
| Kinds.KindOf | src/Visitor.ts:424 | `this[type]` finds a formatter named by the tag, or none when no formatter has that name |
| Comments.Comment | src/Visitor.ts:186-188 | a comment prints as `' ` followed by its `value` when that is truthy and by its `trailingComments` otherwise |
| Comments.Tail | src/Visitor.ts:487-493 | without a trailing comment the line is unchanged; with one, the earlier elements stay as they were and exactly one line suffix is appended as the last element |
| Comments.TailCommentOnce | src/Visitor.ts:487-493 | after `tail`, a line that did not hold the comment holds it exactly once (counted among the line's elements) |
| Comments.EmptyStatement | src/Visitor.ts:176-184 | an empty statement is its comment as a line suffix when there is one, and `''` exactly when there is none |
| Layout.DropBlank | src/Visitor.ts:357 | the filter keeps exactly the entries that are not `''`, never adds any, and leaves no `''` |
| Layout.DropBlankAppend | src/Visitor.ts:27 | filtering a concatenation gives the filtered parts in the same order, so the kept entries keep their order |
| Layout.Block | src/Visitor.ts:22-28 | `Program` and `BlockStatement` join the filtered body with hard breaks: the entries are exactly `asArray(body)` with every `''` dropped, in their order and multiplicity (Layout.DropBlank, Layout.DropBlankAppend); an absent body gives an empty join and a single body is joined alone |
| Layout.EmptyStatementDropped | src/Visitor.ts:355-358 | an empty statement without a comment leaves a block exactly as if it were not there |
| Layout.EmptyStatementKept | src/Visitor.ts:355-358 | an empty statement with a comment stays in the block, in its place |
| Layout.Nested | src/Visitor.ts:95-97 | a truthy body adds one indented part that starts with a line; a falsy body adds nothing |
| Layout.Branches | src/Visitor.ts:130-134 | each alternate branch becomes a line followed by that branch, in order |
| Layout.If | src/Visitor.ts:250-269 | an `if` (or `#if`) is a line, the header with the comment, the indented consequent when present, each alternate in order, then a line and the closing keyword |
| Layout.ElseIf | src/Visitor.ts:151-161 | an `else if` (or `#else if`) is a line, the header and the body when present, and the comment goes after the body |
| Layout.Else | src/Visitor.ts:163-174 | an `else` (or `#else`) is a line, the keyword and the body when present, and the comment goes last |
| Layout.Loop | src/Visitor.ts:339-353 | a loop is a line, the grouped space-joined header, the body indented after a line exactly when it is truthy, a line and the closing keyword |
| Layout.ForSignature | src/Visitor.ts:211-217 | the `for` header starts with `for counter = init to test`; the comment comes right after `test`, before the `step` clause, which is added only when `update` is truthy |
| Layout.Callable | src/Visitor.ts:232 | a function or sub is the grouped header, the body indented after a hard break, a line and the closing keyword |
| Layout.DefaultBlank | src/Visitor.ts:231 | the default `''` replaces only an `undefined` return type |
| Layout.FunctionDeclaration | src/Visitor.ts:230-233 | a function declaration starts with a hard break and ends with a line after `end function` |
| Layout.SubDeclaration | src/Visitor.ts:310-314 | a sub declaration starts with a hard break and ends at `end sub`, with no line after it |
| Layout.Print | src/Visitor.ts:290-295 | the print statement starts with `?` exactly when `shortPrint` is on and with `print` exactly when it is off |
| Layout.Unary | src/Visitor.ts:323-337 | with no operator, the argument is grouped alone and the comment is dropped; a truthy operator that is not a string is a type error; otherwise operator and argument are joined by a space when the operator is `not` in any case, and by `''` for every other operator |
| Layout.TypeAnnotation | src/Visitor.ts:360-362 | a falsy type name gives `''`; otherwise the annotation is `As`, a space and the capitalised name |
| Layout.Parameter | src/Visitor.ts:379-396 | a parameter keeps exactly its truthy parts, space-joined: the name first, then the default value as `= value`, then the annotation last |
| Layout.UntypedParameter | src/Visitor.ts:391-393 | a parameter with no type name prints like one with no annotation slot at all |
| Layout.Separator | src/Visitor.ts:367-374 | the separator is a soft line exactly when the raw count is below 3, and a hard line exactly when it is 3 or more |
| Layout.Object | src/Visitor.ts:364-377 | the object is `{`, the indented properties, then the same separator and `}`; that separator also opens the body and follows each `, ` |
| Layout.ConditionalConst | src/Visitor.ts:86-88 | `#const` and the operator chain, space-joined and grouped; what it keeps is stated by Preservation.ConditionalConstKeepsAssignment |
| Layout.ForEach | src/Visitor.ts:190-205 | `for each counter in collection` with the comment, then the loop body and `end for`; see Preservation.ForEachKeepsChildren |
| Layout.For | src/Visitor.ts:207-228 | the `for` header built by Layout.ForSignature, then the loop body and `end for`; see Preservation.ForKeepsBounds and Preservation.ForKeepsStepBodyAndComment |
| Layout.While | src/Visitor.ts:339-353 | `while test` with the comment, then the loop body and `end while`; see Preservation.WhileKeepsChildren |
| Layout.FunctionExpression | src/Visitor.ts:235-243 | `function params`, plus the return type only when truthy, then the body and `end function`; see Preservation.FunctionExpressionKeepsChildren |
| Layout.SubExpression | src/Visitor.ts:316-321 | `sub params` with the comment, then the body and `end sub`; see Preservation.SubExpressionKeepsChildren |
| Layout.Return | src/Visitor.ts:301-304 | `return`, the argument and the comment, space-joined and grouped; see Preservation.ReturnKeepsArgument |
| Layout.Keyword | src/Visitor.ts:281-283 | `next` and `stop` print the keyword first, followed by exactly one more part, the comment as a line suffix, when there is a trailing comment |
| Layout.Library | src/Visitor.ts:30-34 | `Library` and the path, space-joined; see Preservation.LibraryKeepsPath |
| Layout.Identifier | src/Visitor.ts:398-401 | the raw name followed by the visited type suffix, grouped; see Preservation.IdentifierKeepsNameAndType |
| Layout.Property | src/Visitor.ts:474-479 | key and value joined by `: `, grouped; see Preservation.PropertyKeepsKeyAndValue |
| Layout.ArrayElement | src/Visitor.ts:68-74 | the value with the element's comment, grouped; see Preservation.ArrayElementKeepsValue |
| Layout.ArrayExpression | src/Visitor.ts:76-79 | the elements joined by `, ` between brackets; see Preservation.JoinedItemsKept |
| Layout.ParameterList | src/Visitor.ts:44-47 | the arguments joined by `, ` between parentheses, grouped; see Preservation.JoinedItemsKept |
| Layout.Arguments | src/Visitor.ts:481-485 | the parameters, as an array, joined by `, ` between parentheses; see Preservation.ArgumentsKeepParams |
| Layout.Call | src/Visitor.ts:81-84 | the callee followed by its arguments, grouped; see Preservation.CallKeepsOperands |
| Layout.Parenthesis | src/Visitor.ts:64-66 | the expression between parentheses, grouped; see Preservation.ParenthesisKeepsExpression |
| Layout.DotMember | src/Visitor.ts:146-149 | the operator followed by the right side; see Preservation.DotMemberKeepsOperands |
| Layout.Member | src/Visitor.ts:275-279 | the object followed by its properties, as an array; see Preservation.MemberKeepsObjectAndProperties |
| Merge.Pairs | src/Visitor.ts:466-469 | the reference interleaving: divider i, then operand i, for every operand, so it has twice as many elements |
| Merge.PairsCons | src/Visitor.ts:466-469 | one loop turn shifts one divider and one operand off the front and pushes them in that order |
| Merge.MergeOperands | src/Visitor.ts:465-472 | the result is `to` followed by the pairs (divider i, operand i) for every operand, in order |
| Merge.MergeTokenOrder | src/Visitor.ts:455-472 | with one operator per right operand, the chain is the left operands unchanged, then operator i followed by right operand i at positions left+2i and left+2i+1 |
| Merge.BinaryTokenOrder | src/Visitor.ts:455-463 | `binary` joins exactly the left operands followed by the operator/operand pairs, so it has `left + 2·right` elements |
| Merge.MissingOperatorsAreUndefined | src/Visitor.ts:467 | when operators run out, `shift` on the empty dividers pushes `undefined` in the operator's place |
| Merge.ChainOrder | src/Visitor.ts:455-472 | `a + b + c`, flattened to left `a`, right `[b, c]` and operators `[+, +]`, prints in source order `a + b + c` |
| Visitor.Slot | src/Visitor.ts:445 | a key missing from the record reads as `undefined`; otherwise the value is the one at the last entry with that key |
| Visitor.Collect | src/Visitor.ts:428-440 | mapping succeeds exactly when every element succeeds, giving the element results in order; a failure is the error of the first element that fails, every earlier one having succeeded |
| Visitor.DispatchChild | src/Visitor.ts:414-425 | a child with a formatter gives that formatter's document, `undefined` when it returns nothing, and fails exactly when the formatter fails; a child with no formatter gives `undefined` when its tag should have one and its raw source text otherwise |
| Visitor.VisitSlot | src/Visitor.ts:410-442 | a falsy slot is handed on unchanged; a truthy string or an untyped child gives `undefined`; a typed child is dispatched; an array is mapped element by element into an array of the same length, and that map fails exactly when some element's dispatch fails, with that element's error |
| Visitor.Visit | src/Visitor.ts:403-446 | an untyped node gives `null`; otherwise `visit` fails exactly when some registered slot fails, with the error of one of those slots, and on success the record has exactly the registered keys, in order, each with its slot's visited value |
| Visitor.Destructure | src/Visitor.ts:23 | destructuring what `visit` returns for an untyped node is a type error; for a typed node it fails exactly when `visit` fails, with the same error, and otherwise gives the record `visit` built |
| Visitor.Binary | src/Visitor.ts:455-456 | `binary` fails exactly when destructuring its node fails, with the same error; on an untyped node that is a type error; see VisitorProperties.BinaryNodeTokenOrder for the document |
| Visitor.Identifier | src/Visitor.ts:398-401 | `Identifier` fails exactly when destructuring its node fails, with the same error, and otherwise is the raw `name` followed by the visited `asType`, grouped |
| Visitor.IdentifierOf | src/Visitor.ts:211 | formatting a `for` counter that is not a node is a type error; a node counter fails exactly when destructuring it fails, with that error, and otherwise is its raw name followed by its visited type suffix |
| Visitor.Format | src/Visitor.ts:414-425 | `this[type](node)`: a formatter returns `undefined` exactly for `DimStatement`, `GoToStatement`, `PostfixExpression` and `ConditionalError`; the formatters that read raw fields never fail and give exactly Visitor.FromFields; the others fail on an untyped node |
| Visitor.FromFields | src/Visitor.ts:36-42 | the formatters that read raw fields: an untyped identifier is its raw `name` and a literal its raw `value` (also src/Visitor.ts:271-273); a string literal prints its raw source text; a type annotation is Layout.TypeAnnotation of its `value` (src/Visitor.ts:360-362); a comment is `' ` then its value, or its trailing comments when the value is falsy; `next` and `stop` are the keyword, followed by exactly one more part when there is a trailing comment |
| Visitor.FormatSpecial | src/Visitor.ts:49-62 | the binary, `#const`, `for`, unary and identifier formatters always return a document when they succeed, and fail on an untyped node; the document each builds is stated by the VisitorProperties lemmas on those kinds |
| Visitor.FromRecord | src/Visitor.ts:115-118 | a record-based formatter yields nothing exactly when it lacks a `return`; the document each of the others builds is stated by the Dispatch lemmas |
| VisitorProperties.VisitRecordLookup | src/Visitor.ts:445 | destructuring a registered key from the record gives that slot's visited value; any other key gives `undefined` |
| VisitorProperties.ShouldBeVisitorIff | src/Visitor.ts:8-10 | a tag should have a formatter exactly when it is registered and has a lower-case letter |
| VisitorProperties.TokenPassesThrough | src/Visitor.ts:417-422 | an all-capitals tag without a formatter prints as its raw source text, whatever the registry holds |
| VisitorProperties.TokenSlot | src/Visitor.ts:40-42 | a slot holding such a token child is visited to the token's source text |
| VisitorProperties.FormatUsesRecord | src/Visitor.ts:23 | a formatter that neither reads raw fields nor is special-cased formats exactly the record destructured from `visit`, and fails exactly when destructuring fails |
| VisitorProperties.PrintTokenFollowsOptions | src/Visitor.ts:290-295 | whatever the record, a `print` statement formatted under the options starts with `?` exactly when the options have a `shortPrint` key, and with `print` otherwise |
| VisitorProperties.ObjectSeparatorFromRawCount | src/Visitor.ts:367-376 | whatever the visited record holds, the object separator is fixed by the node's raw property count |
| VisitorProperties.EmptyStatementNodeIsBlank | src/Visitor.ts:176-184 | an `EmptyStatement` whose record has no comment prints as `''` |
| VisitorProperties.BinaryNodeTokenOrder | src/Visitor.ts:455-463 | when the node destructures and has one operator per right operand, `binary` succeeds with the space-joined group of the left operands followed by operator i and right operand i, in order |
| VisitorProperties.BinaryKindsFormatWithBinary | src/Visitor.ts:49-62 | `AdditionExpression`, `AssignmentExpression`, `MultiplicationExpression`, `LogicExpression` and `RelationExpression` (src/Visitor.ts:297-299) return exactly what `binary` returns and throw exactly what it throws |
| VisitorProperties.ConditionalConstFormat | src/Visitor.ts:86-88 | `#const` is the grouped space-join of `#const` and the `binary` chain, and throws exactly what `binary` throws |
| VisitorProperties.IdentifierKindFormat | src/Visitor.ts:398-401 | an `Identifier` node prints as its raw name followed by its visited `asType`, grouped, and throws exactly when its record cannot be destructured |
| VisitorProperties.ForCounterThroughIdentifier | src/Visitor.ts:207-228 | the `for` counter goes through `Identifier` on the raw `counter` field: no counter node is a type error and the counter's own error is the loop's error; otherwise the loop is exactly Layout.For of the formatted counter, the visited `init`, `test`, `update` and `body` and the node's comment, so its header begins `for counter = init to test` |
| VisitorProperties.UnaryKindFormat | src/Visitor.ts:323-337 | a unary node with a falsy operator prints its grouped argument alone; a truthy operator that is not a string throws; a string operator gives Layout.Unary of the visited operator, argument and the node's comment |
| Dispatch.ProgramFormat | src/Visitor.ts:22-28 | for any record, `Program` joins its visited `body` as Layout.Block does |
| Dispatch.BlockStatementFormat | src/Visitor.ts:355-358 | for any record, `BlockStatement` joins its visited `body` as Layout.Block does |
| Dispatch.EmptyStatementFormat | src/Visitor.ts:176-184 | for any record, `EmptyStatement` is Comments.EmptyStatement of its visited `trailingComments` |
| Dispatch.IfStatementFormat | src/Visitor.ts:250-269 | for any record, `IfStatement` hands its visited `test`, `consequent` and `alternate` and the node's comment to Layout.If with `if` and `end if` |
| Dispatch.ConditionalIfStatementFormat | src/Visitor.ts:120-139 | for any record, `ConditionalIfStatement` hands its visited `test`, `consequent` and `alternate` and the node's comment to Layout.If with `#if` and `#end if` |
| Dispatch.ElseIfStatementFormat | src/Visitor.ts:151-161 | for any record, `ElseIfStatement` hands its visited `test` and `body` and the node's comment to Layout.ElseIf with `else if` |
| Dispatch.ConditionalElseIfStatementFormat | src/Visitor.ts:90-100 | for any record, `ConditionalElseIfStatement` hands its visited `test` and `body` and the node's comment to Layout.ElseIf with `#else if` |
| Dispatch.ElseStatementFormat | src/Visitor.ts:163-174 | for any record, `ElseStatement` hands its visited `body` and the node's comment to Layout.Else with `else` |
| Dispatch.ConditionalElseStatementFormat | src/Visitor.ts:102-113 | for any record, `ConditionalElseStatement` hands its visited `body` and the node's comment to Layout.Else with `#else` |
| Dispatch.ForEachStatementFormat | src/Visitor.ts:190-205 | for any record, `ForEachStatement` hands its visited `counter`, `countExpression` and `body` and the node's comment to Layout.ForEach |
| Dispatch.WhileStatementFormat | src/Visitor.ts:339-353 | for any record, `WhileStatement` hands its visited `test` and `body` and the node's comment to Layout.While |
| Dispatch.FunctionDeclarationFormat | src/Visitor.ts:230-233 | for any record, `FunctionDeclaration` hands its visited `id`, `params`, `ReturnType` and `body` to Layout.FunctionDeclaration |
| Dispatch.FunctionExpressionFormat | src/Visitor.ts:235-243 | for any record, `FunctionExpression` hands its visited `params`, `ReturnType` and `body` to Layout.FunctionExpression |
| Dispatch.SubDeclarationFormat | src/Visitor.ts:310-314 | for any record, `SubDeclaration` hands its visited `id`, `params` and `body` and the node's comment to Layout.SubDeclaration |
| Dispatch.SubExpressionFormat | src/Visitor.ts:316-321 | for any record, `SubExpression` hands its visited `params` and `body` and the node's comment to Layout.SubExpression |
| Dispatch.PrintStatementFormat | src/Visitor.ts:290-295 | for any record, `PrintStatement` hands the `shortPrint` option, its visited `value` and the node's comment to Layout.Print |
| Dispatch.ReturnStatementFormat | src/Visitor.ts:301-304 | for any record, `ReturnStatement` hands its visited `argument` and the node's comment to Layout.Return |
| Dispatch.LibraryStatementFormat | src/Visitor.ts:30-34 | for any record, `LibraryStatement` hands its visited `path` to Layout.Library |
| Dispatch.ObjectExpressionFormat | src/Visitor.ts:364-377 | for any record, `ObjectExpression` hands the raw property count, its visited `properties` and the node's comment to Layout.Object |
| Dispatch.ParameterListFormat | src/Visitor.ts:44-47 | for any record, `ParameterList` hands its visited `args` to Layout.ParameterList |
| Dispatch.ParenthesisExpressionFormat | src/Visitor.ts:64-66 | for any record, `ParenthesisExpression` hands its visited `expression` to Layout.Parenthesis |
| Dispatch.ArrayElementFormat | src/Visitor.ts:68-74 | for any record, `ArrayElement` hands its visited `value` and the node's comment to Layout.ArrayElement |
| Dispatch.ArrayExpressionFormat | src/Visitor.ts:76-79 | for any record, `ArrayExpression` hands its visited `elements` to Layout.ArrayExpression |
| Dispatch.CallExpressionFormat | src/Visitor.ts:81-84 | for any record, `CallExpression` hands its visited `callee` and `args` to Layout.Call |
| Dispatch.DotMemberExpressionFormat | src/Visitor.ts:146-149 | for any record, `DotMemberExpression` hands its visited `operator` and `right` to Layout.DotMember |
| Dispatch.MemberExpressionFormat | src/Visitor.ts:275-279 | for any record, `MemberExpression` hands its visited `object` and `properties` to Layout.Member |
| Dispatch.ParameterFormat | src/Visitor.ts:379-396 | for any record, `Parameter` hands its visited `name`, `TypeAnnotation` and `value` to Layout.Parameter |
| Dispatch.PropertyFormat | src/Visitor.ts:474-479 | for any record, `Property` hands its visited `key` and `value` to Layout.Property |
| Dispatch.ArgumentsFormat | src/Visitor.ts:481-485 | for any record, `Arguments` hands its visited `param` to Layout.Arguments |
| Preservation.InTail | src/Visitor.ts:487-493 | whatever a line element holds is still in the `tail`ed line |
| Preservation.SuffixInTail | src/Visitor.ts:488-489 | a truthy trailing comment is in the `tail`ed line |
| Preservation.CallKeepsOperands | src/Visitor.ts:81-84 | a call keeps its callee and its arguments |
| Preservation.ParenthesisKeepsExpression | src/Visitor.ts:64-66 | parentheses keep their expression |
| Preservation.DotMemberKeepsOperands | src/Visitor.ts:146-149 | a dot member keeps its operator and its right side |
| Preservation.PropertyKeepsKeyAndValue | src/Visitor.ts:474-479 | a property keeps its key and its value |
| Preservation.ParameterKeepsParts | src/Visitor.ts:379-396 | a parameter keeps its name, its default value and its type annotation, whichever are truthy |
| Preservation.ArrayElementKeepsValue | src/Visitor.ts:68-74 | an array element keeps its value and its trailing comment |
| Preservation.JoinedItemsKept | src/Visitor.ts:44-47 | a parameter list and an array expression keep the items they join |
| Preservation.LibraryKeepsPath | src/Visitor.ts:30-34 | a `Library` statement keeps its path |
| Preservation.ConditionalConstKeepsAssignment | src/Visitor.ts:86-88 | `#const` keeps its assignment |
| Preservation.IdentifierKeepsNameAndType | src/Visitor.ts:398-401 | an identifier keeps its raw name and its type suffix |
| Preservation.MemberKeepsObjectAndProperties | src/Visitor.ts:275-279 | a member expression keeps its object and every property |
| Preservation.ArgumentsKeepParams | src/Visitor.ts:481-485 | an argument list keeps every argument |
| Preservation.WhileKeepsChildren | src/Visitor.ts:339-353 | a `while` loop keeps its test, its body when present and its comment |
| Preservation.ForEachKeepsChildren | src/Visitor.ts:190-205 | a `for each` loop keeps its counter, its collection, its body when present and its comment |
| Preservation.ForKeepsBounds | src/Visitor.ts:207-213 | a `for` loop keeps its counter, its start and its bound |
| Preservation.ForKeepsStepBodyAndComment | src/Visitor.ts:213-227 | a `for` loop keeps a present step, a present body and its comment |
| Preservation.ReturnKeepsArgument | src/Visitor.ts:301-304 | a `return` keeps its argument and its comment |
| Preservation.PrintKeepsValues | src/Visitor.ts:290-295 | a print statement keeps every printed value and its comment |
| Preservation.KeywordKeepsComment | src/Visitor.ts:281-283 | `next` and `stop` keep their comment |
| Preservation.CommentKeepsText | src/Visitor.ts:186-188 | a comment keeps its truthy `value`, and then its trailing comments make no difference; with a falsy value it keeps its trailing comments |
| Preservation.UnaryKeepsOperands | src/Visitor.ts:323-337 | a unary expression keeps its argument, and with an operator also the operator and the comment |
| Preservation.ObjectKeepsProperties | src/Visitor.ts:364-377 | an object keeps its properties and its comment |
| Preservation.IfKeepsTestAndComment | src/Visitor.ts:250-254 | an `if` keeps its test and its comment |
| Preservation.IfKeepsConsequent | src/Visitor.ts:256-258 | an `if` keeps a present consequent |
| Preservation.IfKeepsAlternate | src/Visitor.ts:260-264 | an `if` keeps alternate branch `i` |
| Preservation.IfKeepsAlternates | src/Visitor.ts:260-264 | an `if` keeps every alternate branch |
| Preservation.ElseIfKeepsChildren | src/Visitor.ts:151-161 | an `else if` keeps its test, its body when present and its comment |
| Preservation.ElseKeepsChildren | src/Visitor.ts:163-174 | an `else` keeps its body when present and its comment |
| Preservation.FunctionDeclarationKeepsHeader | src/Visitor.ts:230-232 | a function declaration keeps its name, its parameters and a present return type |
| Preservation.FunctionDeclarationKeepsBody | src/Visitor.ts:230-232 | a function declaration keeps its body |
| Preservation.FunctionExpressionKeepsChildren | src/Visitor.ts:235-243 | a function expression keeps its parameters, its body and a present return type |
| Preservation.SubDeclarationKeepsChildren | src/Visitor.ts:310-314 | a sub declaration keeps its name, its parameters, its body and its comment |
| Preservation.SubExpressionKeepsChildren | src/Visitor.ts:316-321 | a sub expression keeps its parameters, its body and its comment |

## Left out

- The prettier renderer: group fitting, widths, indentation and how line
  suffixes are flushed belong to an external library. `Doc` is an uninterpreted tree.
- The contents of the slot registry (`visitorKeys`) come from an external package.
  The registry is a parameter. A kind it does not list gets no keys, so `visit`
  returns an empty record rather than stopping.
- lodash `capitalize`: its case mapping is not visible, so it is a parameter.
- `toUpperCase`/`toLowerCase` are modelled for ASCII letters only.
- The `console.warn` and `console.log` diagnostics are side effects and are left out.
- src/index.ts (plugin registration and default options), test/helpers.ts and
  test/prettier.spec.ts (file I/O and calls into prettier) are not part of this model.
- Claims about the whole pipeline, such as idempotent formatting, need the
  external parser and renderer and are not stated.
- A node tag naming one of the printer's non-formatter members (`visit`, `tail`,
  `constructor`, or an inherited member) is treated as having no formatter.
- Numeric slot values are not modelled. A slot is absent or falsy, a string, a node,
  or an array of nodes. String lengths count characters, not UTF-16 code units.
- An untyped element inside an array slot is looked up in the code as
  `this[undefined]`. The model treats it as a tag with no formatter.
- Kinds.KindOf: the model does not prove that every declared kind is found by
  its own name. Only soundness is stated, plus that no result means no match.
- Layout.DropBlank: order preservation is stated through
  `Layout.DropBlankAppend` (the filter distributes over concatenation), not as
  a subsequence relation.
- Many formatters do not call `tail`, so they do not print the node's trailing
  comment, and the model follows the code: `Program`, `BlockStatement`,
  `LibraryStatement`, `ParameterList`, `ParenthesisExpression`, `ArrayExpression`,
  `CallExpression`, `ConditionalConst`, `DotMemberExpression`, `MemberExpression`,
  the binary family (`AdditionExpression`, `AssignmentExpression`,
  `MultiplicationExpression`, `LogicExpression`, `RelationExpression`),
  `FunctionDeclaration`, `FunctionExpression`, `Parameter`, `Identifier`,
  `Property`, `Arguments`, `TypeAnnotation`, `UnTypedIdentifier`, `Literal` and
  `STRING_LITERAL`. Their Preservation lemmas say nothing about a comment.
- `Comment` prints only one of `value` and `trailingComments`: the second only
  when the first is falsy. Nothing is claimed to keep both
  (Preservation.CommentKeepsText states which one is kept).
- The binary family has no Preservation lemma of its own. Merge.MergeTokenOrder
  and Merge.BinaryTokenOrder state where each operand and operator goes.
- Layout.Unary: with no operator, the code returns the grouped argument and the
  trailing comment is dropped. The model does the same.
- `join` is sometimes handed a slot value that is not an array (ParameterList,
  ArrayExpression, ObjectExpression). The model records that value as it is.
- In these cases the model follows the code:
  - An unregistered node kind is not fatal.
  - A should-be-visitor slot is `undefined` (not `null`).
  - A chain with fewer operators than right operands gets `undefined`
    operators instead of an error.
  - A sub declaration ends without the trailing line a function declaration has.

=== FILE: ast.dfy ===
/** The BrightScript syntax tree as the printer receives it from the parser.

    A node is a JavaScript object: a `type` tag, named fields read through
    `ctx[key]`, and the raw text of the node (`loc.source`). */
module Ast {

  /** The falsy JavaScript values other than the empty string. */
  datatype Falsy = Undefined | Null | Zero | False

  /** The value stored under one key of a node. */
  datatype Field =
    | Absent(v: Falsy)            // a falsy non-string value (a missing key reads as `undefined`)
    | Str(s: string)              // a primitive string; `Str("")` is falsy
    | Child(node: Node)           // a single child node
    | Children(nodes: seq<Node>)  // an array of child nodes

  /** A syntax node. `kind` is the `type` tag; the empty string stands for a
      node without a (truthy) tag. `source` is the node's `loc.source`. */
  datatype Node = Node(kind: string, fields: map<string, Field>, source: string)

  /** `ctx[key]`: a key that is not present reads as `undefined`. */
  function Get(n: Node, key: string): (f: Field)
    ensures key !in n.fields ==> f == Absent(Undefined)
    ensures key in n.fields ==> f == n.fields[key] && f < n
  {
    if key in n.fields then n.fields[key] else Absent(Undefined)
  }

  /** JavaScript truthiness of a field value. */
  predicate FieldTruthy(f: Field) {
    match f
    case Absent(_) => false
    case Str(s) => s != ""
    case _ => true
  }

  /** `(ctx.properties && ctx.properties.length) || 0`: the raw length of a
      field. A string has its length; a node object has no numeric `length`. */
  function RawLength(f: Field): (len: nat)
    ensures !FieldTruthy(f) ==> len == 0
    ensures f.Children? ==> len == |f.nodes|
    ensures f.Child? ==> len == 0
  {
    match f
    case Absent(_) => 0
    case Str(s) => |s|
    case Child(_) => 0
    case Children(ns) => |ns|
  }
}

=== FILE: comments.dfy ===
/** Trailing comments: how a comment is printed, how it is pinned to the end
    of a statement's line (`tail`), and how a statement that holds nothing but
    a comment is printed (`EmptyStatement`). */
module Comments {
  import opened Ast
  import opened Docs

  /** `Comment({ value, trailingComments })`: a quote mark, a space, and the
      comment's `value`, or its `trailingComments` when `value` is falsy. */
  function Comment(value: Field, trailingComments: Field): (r: Doc)
    ensures r.Group? && r.contents.Concat? && |r.contents.parts| == 2
    ensures r.contents.parts[0] == Text("' ")
    ensures FieldTruthy(value) ==> r.contents.parts[1] == RawValue(value)
    ensures !FieldTruthy(value) ==> r.contents.parts[1] == RawValue(trailingComments)
  {
    Group(Concat([Text("' "), Or(RawValue(value), RawValue(trailingComments))]))
  }

  /** `Comment` applied to a raw value: a node is destructured into its own
      fields, while a string or an array has neither property. */
  function CommentOf(attached: Field): Doc {
    match attached
    case Child(m) => Comment(Get(m, "value"), Get(m, "trailingComments"))
    case _ => Comment(Absent(Undefined), Absent(Undefined))
  }

  /** What `tail` appends for a node whose raw `trailingComments` is `attached`. */
  function Suffix(attached: Field): Doc {
    LineSuffix(CommentOf(attached))
  }

  /** `tail(line, ctx)`, where `attached` is `ctx.trailingComments`. */
  function Tail(line: seq<Doc>, attached: Field): (r: seq<Doc>)
    ensures !FieldTruthy(attached) ==> r == line
    ensures FieldTruthy(attached) ==> |r| == |line| + 1 && r[..|line|] == line && r[|line|] == Suffix(attached)
  {
    if FieldTruthy(attached) then line + [Suffix(attached)] else line
  }

  /** `EmptyStatement`, given the visited `trailingComments` slot. */
  function EmptyStatement(trailingComments: Doc): (r: Doc)
    ensures Truthy(trailingComments) ==> r == LineSuffix(trailingComments)
    ensures !Truthy(trailingComments) ==> r == Text("")
    ensures r == Text("") <==> !Truthy(trailingComments)
  {
    if Truthy(trailingComments) then LineSuffix(trailingComments) else Text("")
  }

  /** `tail` adds exactly one copy of the comment: a line that did not hold
      it holds it once afterwards. */
  lemma TailCommentOnce(line: seq<Doc>, attached: Field)
    requires FieldTruthy(attached)
    requires Suffix(attached) !in line
    ensures multiset(Tail(line, attached))[Suffix(attached)] == 1
  {
    var x := Suffix(attached);
    assert Tail(line, attached) == line + [x];
    assert multiset(line)[x] == 0;
  }
}

=== FILE: config.dfy ===
/** What the printer is configured with for one run. */
module Config {
  import opened Ast

  /** The plugin flags recognised in the host's options (`flags`). */
  const FlagNames: seq<string> := ["shortPrint"]

  /** The printer's environment: the node shape registry (`visitorKeys`, a
      table from a package outside this model), the `shortPrint` flag, and
      lodash `capitalize` applied to a raw field value (left uninterpreted). */
  datatype Env = Env(
    visitorKeys: map<string, seq<string>>,
    shortPrint: bool,
    capitalize: Field -> string)

  /** The constructor: every flag name that is a key of `options` is set to
      true, whatever value the option holds; the rest keep their default false. */
  function NewEnv(options: map<string, bool>, visitorKeys: map<string, seq<string>>, capitalize: Field -> string): (env: Env)
    ensures env.shortPrint <==> "shortPrint" in options
    ensures env.visitorKeys == visitorKeys
  {
    var flags := set f | f in FlagNames && f in options;
    Env(visitorKeys, "shortPrint" in flags, capitalize)
  }
}

=== FILE: dispatch.dfy ===
/** Which document each record-based formatter produces: the slots it
    destructures and the layout it hands them to. */
module Dispatch {
  import opened Wrappers
  import opened Ast
  import opened Config
  import opened Kinds
  import Comments
  import Layout
  import opened Visitor

  // ---------------------------------------------- record-based formatters
  // For any record `rec` (the one `visit` built, by FormatUsesRecord), each
  // kind destructures the slots named below and hands them to its layout.

  lemma ProgramFormat(env: Env, n: Node, rec: Record)
    ensures FromRecord(env, Program, n, rec) == Some(Layout.Block(Slot(rec, "body")))
  {
  }

  lemma BlockStatementFormat(env: Env, n: Node, rec: Record)
    ensures FromRecord(env, BlockStatement, n, rec) == Some(Layout.Block(Slot(rec, "body")))
  {
  }

  lemma EmptyStatementFormat(env: Env, n: Node, rec: Record)
    ensures FromRecord(env, EmptyStatement, n, rec) == Some(Comments.EmptyStatement(Slot(rec, "trailingComments")))
  {
  }

  lemma IfStatementFormat(env: Env, n: Node, rec: Record)
    ensures FromRecord(env, IfStatement, n, rec) == Some(Layout.If("if", "end if",
      Slot(rec, "test"), Slot(rec, "consequent"), Slot(rec, "alternate"), Get(n, "trailingComments")))
  {
  }

  lemma ConditionalIfStatementFormat(env: Env, n: Node, rec: Record)
    ensures FromRecord(env, ConditionalIfStatement, n, rec) == Some(Layout.If("#if", "#end if",
      Slot(rec, "test"), Slot(rec, "consequent"), Slot(rec, "alternate"), Get(n, "trailingComments")))
  {
  }

  lemma ElseIfStatementFormat(env: Env, n: Node, rec: Record)
    ensures FromRecord(env, ElseIfStatement, n, rec)
      == Some(Layout.ElseIf("else if", Slot(rec, "test"), Slot(rec, "body"), Get(n, "trailingComments")))
  {
  }

  lemma ConditionalElseIfStatementFormat(env: Env, n: Node, rec: Record)
    ensures FromRecord(env, ConditionalElseIfStatement, n, rec)
      == Some(Layout.ElseIf("#else if", Slot(rec, "test"), Slot(rec, "body"), Get(n, "trailingComments")))
  {
  }

  lemma ElseStatementFormat(env: Env, n: Node, rec: Record)
    ensures FromRecord(env, ElseStatement, n, rec) == Some(Layout.Else("else", Slot(rec, "body"), Get(n, "trailingComments")))
  {
  }

  lemma ConditionalElseStatementFormat(env: Env, n: Node, rec: Record)
    ensures FromRecord(env, ConditionalElseStatement, n, rec)
      == Some(Layout.Else("#else", Slot(rec, "body"), Get(n, "trailingComments")))
  {
  }

  lemma ForEachStatementFormat(env: Env, n: Node, rec: Record)
    ensures FromRecord(env, ForEachStatement, n, rec) == Some(Layout.ForEach(
      Slot(rec, "counter"), Slot(rec, "countExpression"), Slot(rec, "body"), Get(n, "trailingComments")))
  {
  }

  lemma WhileStatementFormat(env: Env, n: Node, rec: Record)
    ensures FromRecord(env, WhileStatement, n, rec)
      == Some(Layout.While(Slot(rec, "test"), Slot(rec, "body"), Get(n, "trailingComments")))
  {
  }

  lemma FunctionDeclarationFormat(env: Env, n: Node, rec: Record)
    ensures FromRecord(env, FunctionDeclaration, n, rec) == Some(Layout.FunctionDeclaration(
      Slot(rec, "id"), Slot(rec, "params"), Slot(rec, "ReturnType"), Slot(rec, "body")))
  {
  }

  lemma FunctionExpressionFormat(env: Env, n: Node, rec: Record)
    ensures FromRecord(env, FunctionExpression, n, rec)
      == Some(Layout.FunctionExpression(Slot(rec, "params"), Slot(rec, "ReturnType"), Slot(rec, "body")))
  {
  }

  lemma SubDeclarationFormat(env: Env, n: Node, rec: Record)
    ensures FromRecord(env, SubDeclaration, n, rec) == Some(Layout.SubDeclaration(
      Slot(rec, "id"), Slot(rec, "params"), Slot(rec, "body"), Get(n, "trailingComments")))
  {
  }

  lemma SubExpressionFormat(env: Env, n: Node, rec: Record)
    ensures FromRecord(env, SubExpression, n, rec)
      == Some(Layout.SubExpression(Slot(rec, "params"), Slot(rec, "body"), Get(n, "trailingComments")))
  {
  }

  lemma PrintStatementFormat(env: Env, n: Node, rec: Record)
    ensures FromRecord(env, PrintStatement, n, rec)
      == Some(Layout.Print(env.shortPrint, Slot(rec, "value"), Get(n, "trailingComments")))
  {
  }

  lemma ReturnStatementFormat(env: Env, n: Node, rec: Record)
    ensures FromRecord(env, ReturnStatement, n, rec) == Some(Layout.Return(Slot(rec, "argument"), Get(n, "trailingComments")))
  {
  }

  lemma LibraryStatementFormat(env: Env, n: Node, rec: Record)
    ensures FromRecord(env, LibraryStatement, n, rec) == Some(Layout.Library(Slot(rec, "path")))
  {
  }

  lemma ObjectExpressionFormat(env: Env, n: Node, rec: Record)
    ensures FromRecord(env, ObjectExpression, n, rec) == Some(Layout.Object(
      RawLength(Get(n, "properties")), Slot(rec, "properties"), Get(n, "trailingComments")))
  {
  }

  lemma ParameterListFormat(env: Env, n: Node, rec: Record)
    ensures FromRecord(env, ParameterList, n, rec) == Some(Layout.ParameterList(Slot(rec, "args")))
  {
  }

  lemma ParenthesisExpressionFormat(env: Env, n: Node, rec: Record)
    ensures FromRecord(env, ParenthesisExpression, n, rec) == Some(Layout.Parenthesis(Slot(rec, "expression")))
  {
  }

  lemma ArrayElementFormat(env: Env, n: Node, rec: Record)
    ensures FromRecord(env, ArrayElement, n, rec) == Some(Layout.ArrayElement(Slot(rec, "value"), Get(n, "trailingComments")))
  {
  }

  lemma ArrayExpressionFormat(env: Env, n: Node, rec: Record)
    ensures FromRecord(env, ArrayExpression, n, rec) == Some(Layout.ArrayExpression(Slot(rec, "elements")))
  {
  }

  lemma CallExpressionFormat(env: Env, n: Node, rec: Record)
    ensures FromRecord(env, CallExpression, n, rec) == Some(Layout.Call(Slot(rec, "callee"), Slot(rec, "args")))
  {
  }

  lemma DotMemberExpressionFormat(env: Env, n: Node, rec: Record)
    ensures FromRecord(env, DotMemberExpression, n, rec) == Some(Layout.DotMember(Slot(rec, "operator"), Slot(rec, "right")))
  {
  }

  lemma MemberExpressionFormat(env: Env, n: Node, rec: Record)
    ensures FromRecord(env, MemberExpression, n, rec) == Some(Layout.Member(Slot(rec, "object"), Slot(rec, "properties")))
  {
  }

  lemma ParameterFormat(env: Env, n: Node, rec: Record)
    ensures FromRecord(env, Parameter, n, rec)
      == Some(Layout.Parameter(Slot(rec, "name"), Slot(rec, "TypeAnnotation"), Slot(rec, "value")))
  {
  }

  lemma PropertyFormat(env: Env, n: Node, rec: Record)
    ensures FromRecord(env, Property, n, rec) == Some(Layout.Property(Slot(rec, "key"), Slot(rec, "value")))
  {
  }

  lemma ArgumentsFormat(env: Env, n: Node, rec: Record)
    ensures FromRecord(env, Arguments, n, rec) == Some(Layout.Arguments(Slot(rec, "param")))
  {
  }
}

=== FILE: docs.dfy ===
/** The layout-document vocabulary handed to the external renderer.

    The first nine constructors are prettier's document builders. The last
    three stand for the plain JavaScript values the printer sometimes places
    where a document is expected: a falsy non-string value, an array, and an
    AST object read straight from a node. The renderer is not modelled; a
    document is an uninterpreted tree. */
module Docs {
  import opened Ast

  datatype Doc =
    | Text(s: string)               // a string; `Text("")` is the empty-statement marker
    | Concat(parts: seq<Doc>)
    | Group(contents: Doc)
    | Indent(contents: Doc)
    | Join(sep: Doc, docs: Doc)     // `join(sep, docs)`; `docs` is normally a `List`
    | Line
    | SoftLine
    | HardLine
    | LineSuffix(contents: Doc)
    | Missing(v: Falsy)             // undefined, null, 0 or false
    | List(elems: seq<Doc>)         // a JavaScript array
    | Raw(node: Node)               // an AST object

  /** A JavaScript `TypeError` raised while building a document. */
  datatype Fault =
    | NoRecord    // no record to destructure: `visit` returned `null` for an untagged value, or read
                  // `type` of `undefined` (the `counter` of a `for` that has none)
    | NotAString  // `toLowerCase` was called on a unary operator that is not a string

  /** JavaScript truthiness of a document value. */
  predicate Truthy(d: Doc) {
    match d
    case Missing(_) => false
    case Text(s) => s != ""
    case _ => true
  }

  /** `a || b`. */
  function Or(a: Doc, b: Doc): (r: Doc)
    ensures Truthy(a) ==> r == a
    ensures !Truthy(a) ==> r == b
  {
    if Truthy(a) then a else b
  }

  /** `asArray`: a falsy value becomes `[]`, an array stays as it is, and
      anything else becomes a one-element array. */
  function AsArray(d: Doc): (r: seq<Doc>)
    ensures !Truthy(d) ==> r == []
    ensures d.List? ==> r == d.elems
    ensures Truthy(d) && !d.List? ==> r == [d]
  {
    if !Truthy(d) then [] else if d.List? then d.elems else [d]
  }

  /** A field read without visiting (`ctx.name`, `{ value }`), as the value it is. */
  function RawValue(f: Field): (d: Doc)
    ensures Truthy(d) <==> FieldTruthy(f)
    ensures f.Str? ==> d == Text(f.s)
    ensures f.Absent? ==> d == Missing(f.v)
  {
    match f
    case Absent(v) => Missing(v)
    case Str(s) => Text(s)
    case Child(m) => Raw(m)
    case Children(ms) => List(seq(|ms|, i requires 0 <= i < |ms| => Raw(ms[i])))
  }
}

=== FILE: kinds.dfy ===
/** The node kinds the printer has a formatter method for, in the order the
    methods are declared, and the translation between a kind and its tag. */
module Kinds {
  import opened Wrappers

  datatype Kind =
    | Program
    | LibraryStatement
    | UnTypedIdentifier
    | STRING_LITERAL
    | ParameterList
    | AdditionExpression
    | AssignmentExpression
    | MultiplicationExpression
    | LogicExpression
    | ParenthesisExpression
    | ArrayElement
    | ArrayExpression
    | CallExpression
    | ConditionalConst
    | ConditionalElseIfStatement
    | ConditionalElseStatement
    | ConditionalError
    | ConditionalIfStatement
    | DimStatement
    | DotMemberExpression
    | ElseIfStatement
    | ElseStatement
    | EmptyStatement
    | Comment
    | ForEachStatement
    | ForStatement
    | FunctionDeclaration
    | FunctionExpression
    | GoToStatement
    | IfStatement
    | Literal
    | MemberExpression
    | NextStatement
    | PostfixExpression
    | PrintStatement
    | RelationExpression
    | ReturnStatement
    | StopStatement
    | SubDeclaration
    | SubExpression
    | UnaryExpression
    | WhileStatement
    | BlockStatement
    | TypeAnnotation
    | ObjectExpression
    | Parameter
    | Identifier
    | Property
    | Arguments

  /** The method name, which is also the node `type` tag it formats. */
  function Name(k: Kind): string {
    match k
    case Program => "Program"
    case LibraryStatement => "LibraryStatement"
    case UnTypedIdentifier => "UnTypedIdentifier"
    case STRING_LITERAL => "STRING_LITERAL"
    case ParameterList => "ParameterList"
    case AdditionExpression => "AdditionExpression"
    case AssignmentExpression => "AssignmentExpression"
    case MultiplicationExpression => "MultiplicationExpression"
    case LogicExpression => "LogicExpression"
    case ParenthesisExpression => "ParenthesisExpression"
    case ArrayElement => "ArrayElement"
    case ArrayExpression => "ArrayExpression"
    case CallExpression => "CallExpression"
    case ConditionalConst => "ConditionalConst"
    case ConditionalElseIfStatement => "ConditionalElseIfStatement"
    case ConditionalElseStatement => "ConditionalElseStatement"
    case ConditionalError => "ConditionalError"
    case ConditionalIfStatement => "ConditionalIfStatement"
    case DimStatement => "DimStatement"
    case DotMemberExpression => "DotMemberExpression"
    case ElseIfStatement => "ElseIfStatement"
    case ElseStatement => "ElseStatement"
    case EmptyStatement => "EmptyStatement"
    case Comment => "Comment"
    case ForEachStatement => "ForEachStatement"
    case ForStatement => "ForStatement"
    case FunctionDeclaration => "FunctionDeclaration"
    case FunctionExpression => "FunctionExpression"
    case GoToStatement => "GoToStatement"
    case IfStatement => "IfStatement"
    case Literal => "Literal"
    case MemberExpression => "MemberExpression"
    case NextStatement => "NextStatement"
    case PostfixExpression => "PostfixExpression"
    case PrintStatement => "PrintStatement"
    case RelationExpression => "RelationExpression"
    case ReturnStatement => "ReturnStatement"
    case StopStatement => "StopStatement"
    case SubDeclaration => "SubDeclaration"
    case SubExpression => "SubExpression"
    case UnaryExpression => "UnaryExpression"
    case WhileStatement => "WhileStatement"
    case BlockStatement => "BlockStatement"
    case TypeAnnotation => "TypeAnnotation"
    case ObjectExpression => "ObjectExpression"
    case Parameter => "Parameter"
    case Identifier => "Identifier"
    case Property => "Property"
    case Arguments => "Arguments"
  }

  /** Every formatter method, in declaration order. */
  const AllKinds: seq<Kind> := [
    Program, LibraryStatement, UnTypedIdentifier, STRING_LITERAL, ParameterList,
    AdditionExpression, AssignmentExpression, MultiplicationExpression, LogicExpression, ParenthesisExpression,
    ArrayElement, ArrayExpression, CallExpression, ConditionalConst, ConditionalElseIfStatement,
    ConditionalElseStatement, ConditionalError, ConditionalIfStatement, DimStatement, DotMemberExpression,
    ElseIfStatement, ElseStatement, EmptyStatement, Comment, ForEachStatement,
    ForStatement, FunctionDeclaration, FunctionExpression, GoToStatement, IfStatement,
    Literal, MemberExpression, NextStatement, PostfixExpression, PrintStatement,
    RelationExpression, ReturnStatement, StopStatement, SubDeclaration, SubExpression,
    UnaryExpression, WhileStatement, BlockStatement, TypeAnnotation, ObjectExpression,
    Parameter, Identifier, Property, Arguments
  ]

  /** The first of `kinds` whose name is `tag`. */
  function Find(kinds: seq<Kind>, tag: string): (r: Option<Kind>)
    ensures r.Some? ==> r.value in kinds && Name(r.value) == tag
    ensures r.None? ==> forall k :: k in kinds ==> Name(k) != tag
  {
    if |kinds| == 0 then None
    else if Name(kinds[0]) == tag then Some(kinds[0])
    else Find(kinds[1..], tag)
  }

  /** `this[type]`: the formatter for a tag, if the printer has one. */
  function KindOf(tag: string): (r: Option<Kind>)
    ensures r.Some? ==> Name(r.value) == tag
    ensures r.None? ==> forall k :: k in AllKinds ==> Name(k) != tag
  {
    Find(AllKinds, tag)
  }

  /** The formatters that end without a `return` and so yield `undefined`. */
  predicate ReturnsNothing(k: Kind) {
    k == DimStatement || k == GoToStatement || k == PostfixExpression || k == ConditionalError
  }

  /** The formatters that never call `visit` and read the node's fields raw. */
  predicate ReadsRaw(k: Kind) {
    k == UnTypedIdentifier || k == STRING_LITERAL || k == Comment || k == Literal
    || k == NextStatement || k == StopStatement || k == TypeAnnotation
  }
}

=== FILE: layout.dfy ===
/** The per-kind formatters of the printer, over the already-visited child
    documents (the keyed record `visit` builds), the node's raw fields where a
    formatter reads them directly, and the raw trailing comment. */
module Layout {
  import opened Ast
  import opened Docs
  import opened Comments
  import Strings
  import opened Wrappers

  // ---------------------------------------------------------------- blocks

  /** The entries of `ds` that are not the empty-string marker, in order. */
  function DropBlank(ds: seq<Doc>): (r: seq<Doc>)
    ensures |r| <= |ds|
    ensures forall i :: 0 <= i < |r| ==> r[i] != Text("")
    ensures forall d :: d in r <==> d in ds && d != Text("")
  {
    if |ds| == 0 then []
    else
      var rest := DropBlank(ds[1..]);
      assert ds == [ds[0]] + ds[1..];
      if ds[0] == Text("") then rest else [ds[0]] + rest
  }

  /** Dropping blanks respects concatenation, so the order of the kept entries
      is the order they had. */
  lemma {:induction false} DropBlankAppend(a: seq<Doc>, b: seq<Doc>)
    ensures DropBlank(a + b) == DropBlank(a) + DropBlank(b)
    decreases |a|
  {
    if |a| == 0 {
      assert a + b == b;
    } else {
      assert (a + b)[1..] == a[1..] + b;
      DropBlankAppend(a[1..], b);
    }
  }

  /** `Program` and `BlockStatement`: the body's documents, minus the `''`
      entries, joined by hard line breaks. */
  function Block(body: Doc): (r: Doc)
    ensures r.Join? && r.sep == HardLine && r.docs.List?
    ensures forall i :: 0 <= i < |r.docs.elems| ==> r.docs.elems[i] != Text("")
    ensures !Truthy(body) ==> r.docs.elems == []
    ensures Truthy(body) && !body.List? ==> r.docs.elems == [body]
    ensures body.List? ==> forall d :: d in r.docs.elems <==> d in body.elems && d != Text("")
    ensures r.docs.elems == DropBlank(AsArray(body))
  {
    Join(HardLine, List(DropBlank(AsArray(body))))
  }

  /** An `EmptyStatement` without a comment leaves no trace in its block. */
  lemma EmptyStatementDropped(before: seq<Doc>, after: seq<Doc>, comment: Doc)
    requires !Truthy(comment)
    ensures Block(List(before + [EmptyStatement(comment)] + after)) == Block(List(before + after))
  {
    var e := Text("");
    assert EmptyStatement(comment) == e;
    DropBlankAppend(before + [e], after);
    DropBlankAppend(before, [e]);
    DropBlankAppend(before, after);
    assert DropBlank([e]) == [] by {
      assert [e][1..] == [];
    }
    var kept := DropBlank(before + [e] + after);
    assert kept == DropBlank(before + after);
    assert AsArray(List(before + [e] + after)) == before + [e] + after;
    assert AsArray(List(before + after)) == before + after;
  }

  /** An `EmptyStatement` holding a comment stays in its block, in place. */
  lemma EmptyStatementKept(before: seq<Doc>, after: seq<Doc>, comment: Doc)
    requires Truthy(comment)
    ensures Block(List(before + [EmptyStatement(comment)] + after)).docs.elems
      == DropBlank(before) + [LineSuffix(comment)] + DropBlank(after)
  {
    var e := LineSuffix(comment);
    DropBlankAppend(before + [e], after);
    DropBlankAppend(before, [e]);
    assert DropBlank([e]) == [e] by {
      assert [e][1..] == [];
    }
    assert DropBlank(before + [e] + after) == DropBlank(before) + [e] + DropBlank(after);
  }

  /** The indented body of a compound statement; nothing when it is falsy. */
  function Nested(body: Doc): (r: seq<Doc>)
    ensures Truthy(body) ==> r == [Indent(Concat([Line, body]))]
    ensures !Truthy(body) ==> r == []
  {
    if Truthy(body) then [Indent(Concat([Line, body]))] else []
  }

  // ---------------------------------------------------------- conditionals

  /** Each `else if`/`else` branch of a conditional behind its own break. */
  function Branches(alternates: seq<Doc>): (r: seq<Doc>)
    ensures |r| == |alternates|
    ensures forall i :: 0 <= i < |r| ==> r[i] == Concat([Line, alternates[i]])
  {
    seq(|alternates|, i requires 0 <= i < |alternates| => Concat([Line, alternates[i]]))
  }

  /** `IfStatement` (`if`/`end if`) and `ConditionalIfStatement` (`#if`/`#end if`). */
  function If(keyword: string, closing: string, test: Doc, consequent: Doc, alternate: Doc, attached: Field): (r: Doc)
    ensures r.Concat? && |r.parts| == 4 + |Nested(consequent)| + |AsArray(alternate)|
    ensures r.parts[0] == Line
    ensures r.parts[1] == Group(Join(Text(" "), List(Tail([Text(keyword), test, Text("then")], attached))))
    ensures r.parts[|r.parts| - 2..] == [Line, Text(closing)]
    ensures Truthy(consequent) ==> r.parts[2] == Indent(Concat([Line, consequent]))
    ensures forall i :: 0 <= i < |AsArray(alternate)| ==>
      r.parts[2 + |Nested(consequent)| + i] == Concat([Line, AsArray(alternate)[i]])
  {
    Concat([Line, Group(Join(Text(" "), List(Tail([Text(keyword), test, Text("then")], attached))))]
      + Nested(consequent) + Branches(AsArray(alternate)) + [Line, Text(closing)])
  }

  /** `ElseIfStatement` (`else if`) and `ConditionalElseIfStatement` (`#else if`).
      The comment is appended after the body, at the end of the branch. */
  function ElseIf(keyword: string, test: Doc, body: Doc, attached: Field): (r: Doc)
    ensures r.Concat? && |r.parts| >= 2 && r.parts[0] == Line
    ensures r.parts[1] == Group(Join(Text(" "), List([Text(keyword), test, Text("then")])))
    ensures r.parts == Tail([Line, r.parts[1]] + Nested(body), attached)
  {
    Concat(Tail([Line, Group(Join(Text(" "), List([Text(keyword), test, Text("then")])))] + Nested(body), attached))
  }

  /** `ElseStatement` (`else`) and `ConditionalElseStatement` (`#else`). */
  function Else(keyword: string, body: Doc, attached: Field): (r: Doc)
    ensures r.Concat? && |r.parts| >= 2 && r.parts[..2] == [Line, Text(keyword)]
    ensures r.parts == Tail([Line, Text(keyword)] + Nested(body), attached)
  {
    Concat(Tail([Line, Text(keyword)] + Nested(body), attached))
  }

  /** `ConditionalConst`: `#const` and the assignment chain. */
  function ConditionalConst(assignment: Doc): Doc
  {
    Group(Join(Text(" "), List([Text("#const"), assignment])))
  }

  // ----------------------------------------------------------------- loops

  /** The common shape of the loops: a break, the grouped header, the
      indented body when there is one, a break and the closing phrase. */
  function Loop(signature: seq<Doc>, body: Doc, closing: string): (r: Doc)
    ensures r.Concat? && |r.parts| == 4 + |Nested(body)|
    ensures r.parts[0] == Line && r.parts[1] == Group(Join(Text(" "), List(signature)))
    ensures r.parts[|r.parts| - 2..] == [Line, Text(closing)]
    ensures Truthy(body) <==> |r.parts| == 5
    ensures Truthy(body) ==> r.parts[2] == Indent(Concat([Line, body]))
  {
    Concat([Line, Group(Join(Text(" "), List(signature)))] + Nested(body) + [Line, Text(closing)])
  }

  /** `ForEachStatement`. */
  function ForEach(counter: Doc, countExpression: Doc, body: Doc, attached: Field): Doc
  {
    Loop(Tail([Text("for"), Text("each"), counter, Text("in"), countExpression], attached), body, "end for")
  }

  /** The header of a `ForStatement`: `tail` runs before `step` is pushed, so
      a trailing comment sits before the step clause. */
  function ForSignature(counter: Doc, init: Doc, test: Doc, update: Doc, attached: Field): (r: seq<Doc>)
    ensures |r| >= 6 && r[..6] == [Text("for"), counter, Text("="), init, Text("to"), test]
    ensures |r| == 6 + (if FieldTruthy(attached) then 1 else 0) + (if Truthy(update) then 2 else 0)
    ensures FieldTruthy(attached) ==> r[6] == Suffix(attached)
    ensures Truthy(update) ==> r[|r| - 2..] == [Text("step"), update]
  {
    Tail([Text("for"), counter, Text("="), init, Text("to"), test], attached)
      + (if Truthy(update) then [Text("step"), update] else [])
  }

  /** `ForStatement`. */
  function For(counter: Doc, init: Doc, test: Doc, update: Doc, body: Doc, attached: Field): Doc
  {
    Loop(ForSignature(counter, init, test, update, attached), body, "end for")
  }

  /** `WhileStatement`. */
  function While(test: Doc, body: Doc, attached: Field): Doc
  {
    Loop(Tail([Text("while"), test], attached), body, "end while")
  }

  // ------------------------------------------------------ functions and subs

  /** The grouped header, the body indented under a hard break, and the
      closing phrase on its own line. */
  function Callable(header: seq<Doc>, body: Doc, closing: string): (r: seq<Doc>)
    ensures |r| == 4 && r[0] == Group(Join(Text(" "), List(header)))
    ensures r[1] == Indent(Concat([HardLine, body]))
    ensures r[2..] == [Line, Text(closing)]
  {
    [Group(Join(Text(" "), List(header))), Indent(Concat([HardLine, body])), Line, Text(closing)]
  }

  /** The `ReturnType = ''` default of a destructuring: it replaces `undefined` only. */
  function DefaultBlank(d: Doc): (r: Doc)
    ensures d == Missing(Undefined) ==> r == Text("")
    ensures d != Missing(Undefined) ==> r == d
  {
    if d == Missing(Undefined) then Text("") else d
  }

  /** `FunctionDeclaration`: a leading hard break, a four-word header whose
      return type defaults to `''`, and a trailing break after `end function`. */
  function FunctionDeclaration(id: Doc, params: Doc, returnType: Doc, body: Doc): (r: Doc)
    ensures r.Concat? && |r.parts| == 6
    ensures r.parts[0] == HardLine && r.parts[5] == Line
    ensures r.parts[1..5] == Callable([Text("function"), id, params, DefaultBlank(returnType)], body, "end function")
  {
    Concat([HardLine] + Callable([Text("function"), id, params, DefaultBlank(returnType)], body, "end function") + [Line])
  }

  /** `FunctionExpression`: the return type is in the header only when truthy. */
  function FunctionExpression(params: Doc, returnType: Doc, body: Doc): Doc
  {
    Concat(Callable([Text("function"), params] + (if Truthy(returnType) then [returnType] else []), body, "end function"))
  }

  /** `SubDeclaration`: a leading hard break but, unlike a function
      declaration, no break after `end sub`. */
  function SubDeclaration(id: Doc, params: Doc, body: Doc, attached: Field): (r: Doc)
    ensures r.Concat? && |r.parts| == 5 && r.parts[0] == HardLine
    ensures r.parts[1..] == Callable(Tail([Text("sub"), id, params], attached), body, "end sub")
  {
    Concat([HardLine] + Callable(Tail([Text("sub"), id, params], attached), body, "end sub"))
  }

  /** `SubExpression`. */
  function SubExpression(params: Doc, body: Doc, attached: Field): Doc
  {
    Concat(Callable(Tail([Text("sub"), params], attached), body, "end sub"))
  }

  // ------------------------------------------------------------ statements

  /** `PrintStatement`: `?` under the `shortPrint` flag, `print` otherwise,
      then the printed values joined by `, `. */
  function Print(shortPrint: bool, value: Doc, attached: Field): (r: Doc)
    ensures r.Group? && r.contents.Join? && r.contents.sep == Text(" ") && r.contents.docs.List?
    ensures |r.contents.docs.elems| >= 2
    ensures r.contents.docs.elems == Tail([r.contents.docs.elems[0], Join(Text(", "), List(AsArray(value)))], attached)
    ensures r.contents.docs.elems[0] == Text("?") <==> shortPrint
    ensures r.contents.docs.elems[0] == Text("print") <==> !shortPrint
  {
    var token := if shortPrint then Text("?") else Text("print");
    Group(Join(Text(" "), List(Tail([token, Join(Text(", "), List(AsArray(value)))], attached))))
  }

  /** `ReturnStatement`. */
  function Return(argument: Doc, attached: Field): Doc
  {
    Group(Join(Text(" "), List(Tail([Text("return"), argument], attached))))
  }

  /** `NextStatement` and `StopStatement`: the keyword and its comment. */
  function Keyword(word: string, attached: Field): (r: Doc)
    ensures r.Concat? && 1 <= |r.parts| && r.parts[0] == Text(word)
    ensures FieldTruthy(attached) <==> |r.parts| == 2
    ensures FieldTruthy(attached) ==> r.parts[1] == Suffix(attached)
  {
    Concat(Tail([Text(word)], attached))
  }

  /** `LibraryStatement`. */
  function Library(path: Doc): Doc
  {
    Join(Text(" "), List([Text("Library"), path]))
  }

  // ----------------------------------------------------------- expressions

  /** `UnaryExpression`. With an operator, the operator and operand joined by
      a space when the operator is `not` (in any case) and by nothing
      otherwise, then the comment; calling `toLowerCase` on an operator that
      is not a string throws. Without an operator, the operand alone in a
      group, and the comment is not printed. */
  function Unary(operator: Doc, argument: Doc, attached: Field): (r: Result<Doc, Fault>)
    ensures !Truthy(operator) ==> r == Ok(Group(argument))
    ensures Truthy(operator) && !operator.Text? ==> r == Err(NotAString)
    ensures operator.Text? && Truthy(operator) ==> r.Ok? && r.value.Group? && r.value.contents.Join?
    ensures operator.Text? && Truthy(operator) ==>
      r.value.contents.docs == List(Tail([operator, argument], attached))
    ensures operator.Text? && Truthy(operator) ==>
      (r.value.contents.sep == Text(" ") <==> Strings.Lower(operator.s) == "not")
    ensures operator.Text? && Truthy(operator) && Strings.Lower(operator.s) != "not" ==> r.value.contents.sep == Text("")
  {
    if !Truthy(operator) then Ok(Group(argument))
    else if !operator.Text? then Err(NotAString)
    else
      var spacing := if Strings.Lower(operator.s) == "not" then " " else "";
      Ok(Group(Join(Text(spacing), List(Tail([operator, argument], attached)))))
  }

  /** `TypeAnnotation`: `As` and the capitalised raw type name when the name is
      truthy, and the empty string otherwise. */
  function TypeAnnotation(capitalize: Field -> string, value: Field): (r: Doc)
    ensures !FieldTruthy(value) ==> r == Text("") && !Truthy(r)
    ensures FieldTruthy(value) ==> r == Group(Concat([Text("As"), Text(" "), Text(capitalize(value))]))
  {
    if FieldTruthy(value) then Group(Concat([Text("As"), Text(" "), Text(capitalize(value))])) else Text("")
  }

  /** `Parameter`: the name, `= default` and the type annotation, each only
      when truthy, joined by spaces. */
  function Parameter(name: Doc, typeAnnotation: Doc, value: Doc): (r: Doc)
    ensures r.Group? && r.contents.Join? && r.contents.sep == Text(" ") && r.contents.docs.List?
    ensures forall i :: 0 <= i < |r.contents.docs.elems| ==> Truthy(r.contents.docs.elems[i])
    ensures |r.contents.docs.elems|
      == (if Truthy(name) then 1 else 0) + (if Truthy(value) then 1 else 0) + (if Truthy(typeAnnotation) then 1 else 0)
    ensures Truthy(name) ==> r.contents.docs.elems[0] == name
    ensures Truthy(typeAnnotation) ==> r.contents.docs.elems[|r.contents.docs.elems| - 1] == typeAnnotation
    ensures Truthy(value) && Truthy(name) ==> r.contents.docs.elems[1] == Concat([Text("= "), value])
    ensures Truthy(value) && !Truthy(name) ==> r.contents.docs.elems[0] == Concat([Text("= "), value])
  {
    var parts := (if Truthy(name) then [name] else [])
      + (if Truthy(value) then [Concat([Text("= "), value])] else [])
      + (if Truthy(typeAnnotation) then [typeAnnotation] else []);
    Group(Join(Text(" "), List(parts)))
  }

  /** A parameter without a declared type prints exactly as one whose
      annotation slot is absent: no `As` clause and no extra separator. */
  lemma UntypedParameter(capitalize: Field -> string, name: Doc, value: Doc, typeName: Field)
    requires !FieldTruthy(typeName)
    ensures Parameter(name, TypeAnnotation(capitalize, typeName), value) == Parameter(name, Missing(Undefined), value)
  {
  }

  /** `Identifier`: the raw `name` followed by the visited type suffix. */
  function Identifier(name: Field, asType: Doc): Doc
  {
    Group(Concat([RawValue(name), asType]))
  }

  /** The separator of an object literal, from its raw property count. */
  function Separator(count: nat): (r: Doc)
    ensures r == SoftLine <==> count < 3
    ensures r == HardLine <==> count >= 3
  {
    if count == 0 then SoftLine else if count < 3 then SoftLine else HardLine
  }

  /** `ObjectExpression`: braces, and one separator, chosen by the raw number
      of properties, used after `{`, after each `, ` and before `}`. */
  function Object(count: nat, properties: Doc, attached: Field): (r: Doc)
    ensures r.Concat? && |r.parts| == 4
    ensures r.parts[0] == Text("{") && r.parts[3] == Text("}")
    ensures r.parts[2] == (if count < 3 then SoftLine else HardLine)
    ensures r.parts[1] == Indent(Concat(Tail([r.parts[2], Join(Concat([Text(", "), r.parts[2]]), properties)], attached)))
  {
    var sep := Separator(count);
    Concat([Text("{"), Indent(Concat(Tail([sep, Join(Concat([Text(", "), sep]), properties)], attached))), sep, Text("}")])
  }

  /** `Property`: key and value joined by `: `. */
  function Property(key: Doc, value: Doc): Doc
  {
    Group(Concat([Join(Text(": "), List([key, value]))]))
  }

  /** `ArrayElement`: the value and the element's comment. */
  function ArrayElement(value: Doc, attached: Field): Doc
  {
    Group(Concat(Tail([Join(Text(": "), List([value]))], attached)))
  }

  /** `ArrayExpression`: the visited `elements` value handed to `join` as it is. */
  function ArrayExpression(elements: Doc): Doc
  {
    Concat([Text("["), Join(Text(", "), elements), Text("]")])
  }

  /** `ParameterList`: the visited `args` value handed to `join` as it is. */
  function ParameterList(args: Doc): Doc
  {
    Group(Concat([Text("("), Join(Text(", "), args), Text(")")]))
  }

  /** `Arguments`: the parameters, as an array, between parentheses. */
  function Arguments(param: Doc): Doc
  {
    Group(Concat([Text("("), Join(Text(", "), List(AsArray(param))), Text(")")]))
  }

  /** `CallExpression`. */
  function Call(callee: Doc, args: Doc): Doc
  {
    Group(Concat([callee, args]))
  }

  /** `ParenthesisExpression`. */
  function Parenthesis(expression: Doc): Doc
  {
    Group(Concat([Text("("), expression, Text(")")]))
  }

  /** `DotMemberExpression`. */
  function DotMember(operator: Doc, right: Doc): Doc
  {
    Concat([operator, right])
  }

  /** `MemberExpression`: the object followed by its properties, as an array. */
  function Member(obj: Doc, properties: Doc): Doc
  {
    Concat([obj, Concat(AsArray(properties))])
  }
}

=== FILE: merge.dfy ===
/** Flattened operator chains. The parser gives a binary-shaped expression as
    three arrays, `left`, `right` and `operator`; `binary` rebuilds the
    left-to-right token order with `mergeOperands`. */
module Merge {
  import opened Ast
  import opened Docs

  /** The `i`-th `dividers.shift()`: `undefined` once the array is exhausted. */
  function DividerAt(dividers: seq<Doc>, i: nat): Doc {
    if i < |dividers| then dividers[i] else Missing(Undefined)
  }

  /** The intended token order, by position: every operand of `from` preceded
      by the divider with the same index. */
  function Pairs(dividers: seq<Doc>, from: seq<Doc>): (r: seq<Doc>)
    ensures |r| == 2 * |from|
  {
    seq(2 * |from|, k requires 0 <= k < 2 * |from| =>
      if k % 2 == 0 then DividerAt(dividers, k / 2) else from[k / 2])
  }

  /** Peeling the first operand and the first divider off `Pairs`. */
  lemma PairsCons(dividers: seq<Doc>, from: seq<Doc>)
    requires |from| > 0
    ensures Pairs(dividers, from)
      == [DividerAt(dividers, 0), from[0]] + Pairs(if |dividers| > 0 then dividers[1..] else [], from[1..])
  {
    var rest := if |dividers| > 0 then dividers[1..] else [];
    var lhs := Pairs(dividers, from);
    var rhs := [DividerAt(dividers, 0), from[0]] + Pairs(rest, from[1..]);
    forall k | 0 <= k < |lhs|
      ensures lhs[k] == rhs[k]
    {
      if k >= 2 {
        assert (k - 2) / 2 == k / 2 - 1;
        assert (k - 2) % 2 == k % 2;
        assert DividerAt(rest, k / 2 - 1) == DividerAt(dividers, k / 2);
      }
    }
  }

  /** `mergeOperands(from, to, dividers)`: while `from` is not empty, push the
      next divider and then the next operand of `from` onto `to`. The result
      is `to` unchanged followed by the operands in their positional order. */
  function MergeOperands(from: seq<Doc>, to: seq<Doc>, dividers: seq<Doc>): (r: seq<Doc>)
    ensures r == to + Pairs(dividers, from)
    decreases |from|
  {
    if |from| == 0 then
      to
    else
      var d := if |dividers| > 0 then dividers[0] else Missing(Undefined);
      var rest := if |dividers| > 0 then dividers[1..] else [];
      var r := MergeOperands(from[1..], to + [d, from[0]], rest);
      PairsCons(dividers, from);
      r
  }

  /** `binary`: the merged tokens, joined with single spaces in one group. */
  function Binary(left: Doc, right: Doc, operator: Doc): Doc {
    Group(Join(Text(" "), List(MergeOperands(AsArray(right), AsArray(left), AsArray(operator)))))
  }

  /** The two positions of `Pairs` that belong to operand `i`. */
  lemma PairsAt(dividers: seq<Doc>, from: seq<Doc>, i: nat)
    requires i < |from|
    ensures Pairs(dividers, from)[2 * i] == DividerAt(dividers, i)
    ensures Pairs(dividers, from)[2 * i + 1] == from[i]
  {
    var even, odd := 2 * i, 2 * i + 1;
    assert even % 2 == 0 && even / 2 == i;
    assert odd % 2 == 1 && odd / 2 == i;
  }

  /** Token order of a chain with one operator per right operand: the left
      operands unchanged, then operator `i` directly before right operand `i`,
      `|left| + 2 * |right|` tokens in all. */
  lemma MergeTokenOrder(left: seq<Doc>, right: seq<Doc>, operator: seq<Doc>)
    requires |operator| == |right|
    ensures var ts := MergeOperands(right, left, operator);
      && |ts| == |left| + 2 * |right|
      && ts[..|left|] == left
      && forall i :: 0 <= i < |right| ==> ts[|left| + 2 * i] == operator[i] && ts[|left| + 2 * i + 1] == right[i]
  {
    var ts := MergeOperands(right, left, operator);
    var p := Pairs(operator, right);
    assert ts == left + p;
    forall i | 0 <= i < |right|
      ensures ts[|left| + 2 * i] == operator[i] && ts[|left| + 2 * i + 1] == right[i]
    {
      PairsAt(operator, right, i);
      assert ts[|left| + 2 * i] == p[2 * i];
      assert ts[|left| + 2 * i + 1] == p[2 * i + 1];
    }
  }

  /** The same for `binary`, whose arrays come from `asArray` of the visited slots. */
  lemma BinaryTokenOrder(left: Doc, right: Doc, operator: Doc)
    requires |AsArray(operator)| == |AsArray(right)|
    ensures Binary(left, right, operator).contents.docs.elems == AsArray(left) + Pairs(AsArray(operator), AsArray(right))
    ensures |Binary(left, right, operator).contents.docs.elems| == |AsArray(left)| + 2 * |AsArray(right)|
  {
    MergeTokenOrder(AsArray(left), AsArray(right), AsArray(operator));
  }

  /** With fewer operators than right operands, each missing operator comes
      out as `undefined`. */
  lemma MissingOperatorsAreUndefined(left: Doc, right: Doc, operator: Doc, i: nat)
    requires |AsArray(operator)| <= i < |AsArray(right)|
    ensures Binary(left, right, operator).contents.docs.elems[|AsArray(left)| + 2 * i] == Missing(Undefined)
  {
    var l, r, o := AsArray(left), AsArray(right), AsArray(operator);
    PairsAt(o, r, i);
    assert MergeOperands(r, l, o) == l + Pairs(o, r);
  }

  /** `a + b + c` keeps its token order. */
  lemma ChainOrder(a: Doc, b: Doc, c: Doc, plus1: Doc, plus2: Doc)
    requires Truthy(a) && !a.List?
    ensures Binary(a, List([b, c]), List([plus1, plus2])).contents.docs == List([a, plus1, b, plus2, c])
  {
    var ops, rights := [plus1, plus2], [b, c];
    var p := Pairs(ops, rights);
    PairsAt(ops, rights, 0);
    PairsAt(ops, rights, 1);
    assert p == [plus1, b, plus2, c];
    assert AsArray(a) == [a];
    assert MergeOperands(rights, [a], ops) == [a] + p;
  }
}

=== FILE: preservation.dfy ===
/** Nothing is lost: every visited child a formatter is given appears in the
    document it builds, and every formatter that calls `tail` prints the
    node's trailing comment when there is one. */
module Preservation {
  import opened Ast
  import opened Docs
  import opened Comments
  import opened Layout

  /** `x` occurs somewhere in `d`. */
  predicate Contains(d: Doc, x: Doc)
    decreases d
  {
    d == x ||
    match d
    case Concat(ps) => exists i :: 0 <= i < |ps| && Contains(ps[i], x)
    case Group(c) => Contains(c, x)
    case Indent(c) => Contains(c, x)
    case Join(s, ds) => Contains(s, x) || Contains(ds, x)
    case LineSuffix(c) => Contains(c, x)
    case List(es) => exists i :: 0 <= i < |es| && Contains(es[i], x)
    case _ => false
  }

  /** Whatever is in one part is in a concatenation or array of the parts. */
  lemma InParts(ps: seq<Doc>, i: nat, x: Doc)
    requires i < |ps| && Contains(ps[i], x)
    ensures Contains(Concat(ps), x) && Contains(List(ps), x)
  {
  }

  /** Whatever is in one item of a `tail`ed line is in the line. */
  lemma InTail(line: seq<Doc>, attached: Field, i: nat, x: Doc)
    requires i < |line| && Contains(line[i], x)
    ensures Contains(Concat(Tail(line, attached)), x) && Contains(List(Tail(line, attached)), x)
  {
    var t := Tail(line, attached);
    assert t[i] == line[i] by { assert t[..|line|][i] == line[i]; }
    InParts(t, i, x);
  }

  /** `tail` adds the comment when there is one. */
  lemma SuffixInTail(line: seq<Doc>, attached: Field)
    requires FieldTruthy(attached)
    ensures Contains(Concat(Tail(line, attached)), Suffix(attached))
    ensures Contains(List(Tail(line, attached)), Suffix(attached))
  {
    InParts(Tail(line, attached), |line|, Suffix(attached));
  }

  /** The grouped, space-joined header keeps what its items hold. */
  lemma InHeader(items: seq<Doc>, i: nat, x: Doc)
    requires i < |items| && Contains(items[i], x)
    ensures Contains(Group(Join(Text(" "), List(items))), x)
  {
    InParts(items, i, x);
  }

  /** A present body appears, indented, in its compound statement. */
  lemma InNested(prefix: seq<Doc>, body: Doc, suffix: seq<Doc>)
    requires Truthy(body)
    ensures Contains(Concat(prefix + Nested(body) + suffix), body)
  {
    InParts([Line, body], 1, body);
    var ps := prefix + Nested(body) + suffix;
    assert ps[|prefix|] == Indent(Concat([Line, body]));
    InParts(ps, |prefix|, body);
  }

  lemma CallKeepsOperands(callee: Doc, args: Doc)
    ensures Contains(Call(callee, args), callee) && Contains(Call(callee, args), args)
  {
    InParts([callee, args], 0, callee);
    InParts([callee, args], 1, args);
  }

  lemma ParenthesisKeepsExpression(expression: Doc)
    ensures Contains(Parenthesis(expression), expression)
  {
    InParts([Text("("), expression, Text(")")], 1, expression);
  }

  lemma DotMemberKeepsOperands(operator: Doc, right: Doc)
    ensures Contains(DotMember(operator, right), operator) && Contains(DotMember(operator, right), right)
  {
    InParts([operator, right], 0, operator);
    InParts([operator, right], 1, right);
  }

  lemma PropertyKeepsKeyAndValue(key: Doc, value: Doc)
    ensures Contains(Property(key, value), key) && Contains(Property(key, value), value)
  {
    var j := Join(Text(": "), List([key, value]));
    InParts([key, value], 0, key);
    InParts([key, value], 1, value);
    InParts([j], 0, key);
    InParts([j], 0, value);
  }

  /** A parameter keeps its name, its default value (after `= `) and its
      type annotation, whichever are present. */
  lemma ParameterKeepsParts(name: Doc, typeAnnotation: Doc, value: Doc)
    ensures Truthy(name) ==> Contains(Parameter(name, typeAnnotation, value), name)
    ensures Truthy(value) ==> Contains(Parameter(name, typeAnnotation, value), value)
    ensures Truthy(typeAnnotation) ==> Contains(Parameter(name, typeAnnotation, value), typeAnnotation)
  {
    var items := Parameter(name, typeAnnotation, value).contents.docs.elems;
    if Truthy(name) {
      InHeader(items, 0, name);
    }
    if Truthy(value) {
      var i := if Truthy(name) then 1 else 0;
      InParts([Text("= "), value], 1, value);
      InHeader(items, i, value);
    }
    if Truthy(typeAnnotation) {
      InHeader(items, |items| - 1, typeAnnotation);
    }
  }

  lemma ArrayElementKeepsValue(value: Doc, attached: Field)
    ensures Contains(ArrayElement(value, attached), value)
    ensures FieldTruthy(attached) ==> Contains(ArrayElement(value, attached), Suffix(attached))
  {
    var j := Join(Text(": "), List([value]));
    InParts([value], 0, value);
    InTail([j], attached, 0, value);
    if FieldTruthy(attached) {
      SuffixInTail([j], attached);
    }
  }

  /** The items handed to `join` as they are keep their place. */
  lemma JoinedItemsKept(items: Doc)
    ensures Contains(ArrayExpression(items), items) && Contains(ParameterList(items), items)
  {
    InParts([Text("["), Join(Text(", "), items), Text("]")], 1, items);
    InParts([Text("("), Join(Text(", "), items), Text(")")], 1, items);
  }

  lemma LibraryKeepsPath(path: Doc)
    ensures Contains(Library(path), path)
  {
    InParts([Text("Library"), path], 1, path);
  }

  lemma ConditionalConstKeepsAssignment(assignment: Doc)
    ensures Contains(ConditionalConst(assignment), assignment)
  {
    InParts([Text("#const"), assignment], 1, assignment);
  }

  lemma IdentifierKeepsNameAndType(name: Field, asType: Doc)
    ensures Contains(Identifier(name, asType), RawValue(name)) && Contains(Identifier(name, asType), asType)
  {
    InParts([RawValue(name), asType], 0, RawValue(name));
    InParts([RawValue(name), asType], 1, asType);
  }

  lemma MemberKeepsObjectAndProperties(obj: Doc, properties: Doc)
    ensures Contains(Member(obj, properties), obj)
    ensures forall i :: 0 <= i < |AsArray(properties)| ==> Contains(Member(obj, properties), AsArray(properties)[i])
  {
    var ps := AsArray(properties);
    InParts([obj, Concat(ps)], 0, obj);
    forall i | 0 <= i < |ps|
      ensures Contains(Member(obj, properties), ps[i])
    {
      InParts(ps, i, ps[i]);
      InParts([obj, Concat(ps)], 1, ps[i]);
    }
  }

  lemma ArgumentsKeepParams(param: Doc)
    ensures forall i :: 0 <= i < |AsArray(param)| ==> Contains(Arguments(param), AsArray(param)[i])
  {
    var ps := AsArray(param);
    forall i | 0 <= i < |ps|
      ensures Contains(Arguments(param), ps[i])
    {
      InParts(ps, i, ps[i]);
      InParts([Text("("), Join(Text(", "), List(ps)), Text(")")], 1, ps[i]);
    }
  }

  /** What a loop's header holds is in the loop. */
  lemma InLoopHeader(signature: seq<Doc>, body: Doc, closing: string, i: nat, x: Doc)
    requires i < |signature| && Contains(signature[i], x)
    ensures Contains(Loop(signature, body, closing), x)
  {
    var h := Group(Join(Text(" "), List(signature)));
    InHeader(signature, i, x);
    var ps := [Line, h] + Nested(body) + [Line, Text(closing)];
    assert ps[1] == h;
    InParts(ps, 1, x);
  }

  /** A present loop body is in the loop. */
  lemma InLoopBody(signature: seq<Doc>, body: Doc, closing: string)
    requires Truthy(body)
    ensures Contains(Loop(signature, body, closing), body)
  {
    InNested([Line, Group(Join(Text(" "), List(signature)))], body, [Line, Text(closing)]);
  }

  lemma WhileKeepsChildren(test: Doc, body: Doc, attached: Field)
    ensures Contains(While(test, body, attached), test)
    ensures Truthy(body) ==> Contains(While(test, body, attached), body)
    ensures FieldTruthy(attached) ==> Contains(While(test, body, attached), Suffix(attached))
  {
    var line := [Text("while"), test];
    var sig := Tail(line, attached);
    assert sig[1] == test by { assert sig[..2][1] == line[1]; }
    InLoopHeader(sig, body, "end while", 1, test);
    if Truthy(body) {
      InLoopBody(sig, body, "end while");
    }
    if FieldTruthy(attached) {
      InLoopHeader(sig, body, "end while", 2, Suffix(attached));
    }
  }

  lemma ForEachKeepsChildren(counter: Doc, countExpression: Doc, body: Doc, attached: Field)
    ensures Contains(ForEach(counter, countExpression, body, attached), counter)
    ensures Contains(ForEach(counter, countExpression, body, attached), countExpression)
    ensures Truthy(body) ==> Contains(ForEach(counter, countExpression, body, attached), body)
    ensures FieldTruthy(attached) ==> Contains(ForEach(counter, countExpression, body, attached), Suffix(attached))
  {
    var line := [Text("for"), Text("each"), counter, Text("in"), countExpression];
    var sig := Tail(line, attached);
    assert sig[2] == counter && sig[4] == countExpression by { assert sig[..5] == line; }
    InLoopHeader(sig, body, "end for", 2, counter);
    InLoopHeader(sig, body, "end for", 4, countExpression);
    if Truthy(body) {
      InLoopBody(sig, body, "end for");
    }
    if FieldTruthy(attached) {
      InLoopHeader(sig, body, "end for", 5, Suffix(attached));
    }
  }

  lemma ForKeepsBounds(counter: Doc, init: Doc, test: Doc, update: Doc, body: Doc, attached: Field)
    ensures Contains(For(counter, init, test, update, body, attached), counter)
    ensures Contains(For(counter, init, test, update, body, attached), init)
    ensures Contains(For(counter, init, test, update, body, attached), test)
  {
    var sig := ForSignature(counter, init, test, update, attached);
    assert sig[1] == counter && sig[3] == init && sig[5] == test by {
      assert sig[..6][1] == counter && sig[..6][3] == init && sig[..6][5] == test;
    }
    InLoopHeader(sig, body, "end for", 1, counter);
    InLoopHeader(sig, body, "end for", 3, init);
    InLoopHeader(sig, body, "end for", 5, test);
  }

  lemma ForKeepsStepBodyAndComment(counter: Doc, init: Doc, test: Doc, update: Doc, body: Doc, attached: Field)
    ensures Truthy(update) ==> Contains(For(counter, init, test, update, body, attached), update)
    ensures Truthy(body) ==> Contains(For(counter, init, test, update, body, attached), body)
    ensures FieldTruthy(attached) ==> Contains(For(counter, init, test, update, body, attached), Suffix(attached))
  {
    var sig := ForSignature(counter, init, test, update, attached);
    if Truthy(update) {
      assert sig[|sig| - 1] == update by { assert sig[|sig| - 2..][1] == update; }
      InLoopHeader(sig, body, "end for", |sig| - 1, update);
    }
    if Truthy(body) {
      InLoopBody(sig, body, "end for");
    }
    if FieldTruthy(attached) {
      InLoopHeader(sig, body, "end for", 6, Suffix(attached));
    }
  }

  lemma ReturnKeepsArgument(argument: Doc, attached: Field)
    ensures Contains(Return(argument, attached), argument)
    ensures FieldTruthy(attached) ==> Contains(Return(argument, attached), Suffix(attached))
  {
    var line := [Text("return"), argument];
    var t := Tail(line, attached);
    assert t[1] == argument by { assert t[..2][1] == line[1]; }
    InHeader(t, 1, argument);
    if FieldTruthy(attached) {
      InHeader(t, 2, Suffix(attached));
    }
  }

  lemma PrintKeepsValues(shortPrint: bool, value: Doc, attached: Field)
    ensures forall i :: 0 <= i < |AsArray(value)| ==> Contains(Print(shortPrint, value, attached), AsArray(value)[i])
    ensures FieldTruthy(attached) ==> Contains(Print(shortPrint, value, attached), Suffix(attached))
  {
    var token := if shortPrint then Text("?") else Text("print");
    var vs := AsArray(value);
    var line := [token, Join(Text(", "), List(vs))];
    var t := Tail(line, attached);
    assert t[1] == line[1] by { assert t[..2][1] == line[1]; }
    forall i | 0 <= i < |vs|
      ensures Contains(Print(shortPrint, value, attached), vs[i])
    {
      InParts(vs, i, vs[i]);
      InHeader(t, 1, vs[i]);
    }
    if FieldTruthy(attached) {
      InHeader(t, 2, Suffix(attached));
    }
  }

  lemma KeywordKeepsComment(word: string, attached: Field)
    requires FieldTruthy(attached)
    ensures Contains(Keyword(word, attached), Suffix(attached))
  {
    SuffixInTail([Text(word)], attached);
  }

  /** A comment keeps the text it prints: its `value` when that is truthy,
      and then its trailing comments make no difference; otherwise the
      trailing comments. */
  lemma CommentKeepsText(value: Field, trailing: Field, other: Field)
    ensures FieldTruthy(value) ==> Contains(Comment(value, trailing), RawValue(value))
    ensures FieldTruthy(value) ==> Comment(value, trailing) == Comment(value, other)
    ensures !FieldTruthy(value) ==> Contains(Comment(value, trailing), RawValue(trailing))
  {
    var parts := Comment(value, trailing).contents.parts;
    InParts(parts, 1, parts[1]);
  }

  lemma UnaryKeepsOperands(operator: Doc, argument: Doc, attached: Field)
    requires Unary(operator, argument, attached).Ok?
    ensures Contains(Unary(operator, argument, attached).value, argument)
    ensures Truthy(operator) ==> Contains(Unary(operator, argument, attached).value, operator)
    ensures Truthy(operator) && FieldTruthy(attached) ==> Contains(Unary(operator, argument, attached).value, Suffix(attached))
  {
    if Truthy(operator) {
      var line := [operator, argument];
      InTail(line, attached, 0, operator);
      InTail(line, attached, 1, argument);
      if FieldTruthy(attached) {
        SuffixInTail(line, attached);
      }
    }
  }

  lemma ObjectKeepsProperties(count: nat, properties: Doc, attached: Field)
    ensures Contains(Object(count, properties, attached), properties)
    ensures FieldTruthy(attached) ==> Contains(Object(count, properties, attached), Suffix(attached))
  {
    var sep := Separator(count);
    var line := [sep, Join(Concat([Text(", "), sep]), properties)];
    InTail(line, attached, 1, properties);
    var inner := Indent(Concat(Tail(line, attached)));
    InParts([Text("{"), inner, sep, Text("}")], 1, properties);
    if FieldTruthy(attached) {
      SuffixInTail(line, attached);
      InParts([Text("{"), inner, sep, Text("}")], 1, Suffix(attached));
    }
  }

  lemma IfKeepsTestAndComment(keyword: string, closing: string, test: Doc, consequent: Doc, alternate: Doc, attached: Field)
    ensures Contains(If(keyword, closing, test, consequent, alternate, attached), test)
    ensures FieldTruthy(attached) ==> Contains(If(keyword, closing, test, consequent, alternate, attached), Suffix(attached))
  {
    var r := If(keyword, closing, test, consequent, alternate, attached);
    var line := [Text(keyword), test, Text("then")];
    var t := Tail(line, attached);
    assert t[1] == test by { assert t[..3][1] == line[1]; }
    InHeader(t, 1, test);
    InParts(r.parts, 1, test);
    if FieldTruthy(attached) {
      InHeader(t, 3, Suffix(attached));
      InParts(r.parts, 1, Suffix(attached));
    }
  }

  lemma IfKeepsConsequent(keyword: string, closing: string, test: Doc, consequent: Doc, alternate: Doc, attached: Field)
    requires Truthy(consequent)
    ensures Contains(If(keyword, closing, test, consequent, alternate, attached), consequent)
  {
    var r := If(keyword, closing, test, consequent, alternate, attached);
    InParts([Line, consequent], 1, consequent);
    InParts(r.parts, 2, consequent);
  }

  lemma IfKeepsAlternate(keyword: string, closing: string, test: Doc, consequent: Doc, alternate: Doc, attached: Field, i: nat)
    requires i < |AsArray(alternate)|
    ensures Contains(If(keyword, closing, test, consequent, alternate, attached), AsArray(alternate)[i])
  {
    var r := If(keyword, closing, test, consequent, alternate, attached);
    var x := AsArray(alternate)[i];
    var j := 2 + |Nested(consequent)| + i;
    assert r.parts[j] == Concat([Line, x]);
    InParts([Line, x], 1, x);
    InParts(r.parts, j, x);
  }

  lemma IfKeepsAlternates(keyword: string, closing: string, test: Doc, consequent: Doc, alternate: Doc, attached: Field)
    ensures forall i :: 0 <= i < |AsArray(alternate)| ==>
      Contains(If(keyword, closing, test, consequent, alternate, attached), AsArray(alternate)[i])
  {
    forall i | 0 <= i < |AsArray(alternate)|
      ensures Contains(If(keyword, closing, test, consequent, alternate, attached), AsArray(alternate)[i])
    {
      IfKeepsAlternate(keyword, closing, test, consequent, alternate, attached, i);
    }
  }

  lemma ElseIfKeepsChildren(keyword: string, test: Doc, body: Doc, attached: Field)
    ensures Contains(ElseIf(keyword, test, body, attached), test)
    ensures Truthy(body) ==> Contains(ElseIf(keyword, test, body, attached), body)
    ensures FieldTruthy(attached) ==> Contains(ElseIf(keyword, test, body, attached), Suffix(attached))
  {
    var h := Group(Join(Text(" "), List([Text(keyword), test, Text("then")])));
    var line := [Line, h] + Nested(body);
    InHeader([Text(keyword), test, Text("then")], 1, test);
    InTail(line, attached, 1, test);
    if Truthy(body) {
      InParts([Line, body], 1, body);
      InTail(line, attached, 2, body);
    }
    if FieldTruthy(attached) {
      SuffixInTail(line, attached);
    }
  }

  lemma ElseKeepsChildren(keyword: string, body: Doc, attached: Field)
    ensures Truthy(body) ==> Contains(Else(keyword, body, attached), body)
    ensures FieldTruthy(attached) ==> Contains(Else(keyword, body, attached), Suffix(attached))
  {
    var line := [Line, Text(keyword)] + Nested(body);
    if Truthy(body) {
      InParts([Line, body], 1, body);
      InTail(line, attached, 2, body);
    }
    if FieldTruthy(attached) {
      SuffixInTail(line, attached);
    }
  }

  /** What a function or sub header holds is in the declaration. */
  lemma InCallableHeader(header: seq<Doc>, body: Doc, closing: string, i: nat, x: Doc)
    requires i < |header| && Contains(header[i], x)
    ensures Contains(Callable(header, body, closing)[0], x)
  {
    InHeader(header, i, x);
  }

  /** The body of a function or sub is in the declaration. */
  lemma InCallableBody(header: seq<Doc>, body: Doc, closing: string)
    ensures Contains(Callable(header, body, closing)[1], body)
  {
    InParts([HardLine, body], 1, body);
  }

  lemma FunctionDeclarationKeepsHeader(id: Doc, params: Doc, returnType: Doc, body: Doc)
    ensures Contains(FunctionDeclaration(id, params, returnType, body), id)
    ensures Contains(FunctionDeclaration(id, params, returnType, body), params)
    ensures Truthy(returnType) ==> Contains(FunctionDeclaration(id, params, returnType, body), returnType)
  {
    var header := [Text("function"), id, params, DefaultBlank(returnType)];
    var c := Callable(header, body, "end function");
    var ps := [HardLine] + c + [Line];
    assert ps[1] == c[0];
    InCallableHeader(header, body, "end function", 1, id);
    InCallableHeader(header, body, "end function", 2, params);
    InParts(ps, 1, id);
    InParts(ps, 1, params);
    if Truthy(returnType) {
      InCallableHeader(header, body, "end function", 3, returnType);
      InParts(ps, 1, returnType);
    }
  }

  lemma FunctionDeclarationKeepsBody(id: Doc, params: Doc, returnType: Doc, body: Doc)
    ensures Contains(FunctionDeclaration(id, params, returnType, body), body)
  {
    var header := [Text("function"), id, params, DefaultBlank(returnType)];
    var c := Callable(header, body, "end function");
    var ps := [HardLine] + c + [Line];
    assert ps[2] == c[1];
    InCallableBody(header, body, "end function");
    InParts(ps, 2, body);
  }

  lemma FunctionExpressionKeepsChildren(params: Doc, returnType: Doc, body: Doc)
    ensures Contains(FunctionExpression(params, returnType, body), params)
    ensures Contains(FunctionExpression(params, returnType, body), body)
    ensures Truthy(returnType) ==> Contains(FunctionExpression(params, returnType, body), returnType)
  {
    var header := [Text("function"), params] + (if Truthy(returnType) then [returnType] else []);
    var c := Callable(header, body, "end function");
    assert header[1] == params;
    InCallableHeader(header, body, "end function", 1, params);
    InCallableBody(header, body, "end function");
    InParts(c, 0, params);
    InParts(c, 1, body);
    if Truthy(returnType) {
      assert header[2] == returnType;
      InCallableHeader(header, body, "end function", 2, returnType);
      InParts(c, 0, returnType);
    }
  }

  lemma SubDeclarationKeepsChildren(id: Doc, params: Doc, body: Doc, attached: Field)
    ensures Contains(SubDeclaration(id, params, body, attached), id)
    ensures Contains(SubDeclaration(id, params, body, attached), params)
    ensures Contains(SubDeclaration(id, params, body, attached), body)
    ensures FieldTruthy(attached) ==> Contains(SubDeclaration(id, params, body, attached), Suffix(attached))
  {
    var line := [Text("sub"), id, params];
    var header := Tail(line, attached);
    var c := Callable(header, body, "end sub");
    var ps := [HardLine] + c;
    assert ps[1] == c[0] && ps[2] == c[1];
    assert header[1] == id && header[2] == params by { assert header[..3] == line; }
    InCallableHeader(header, body, "end sub", 1, id);
    InCallableHeader(header, body, "end sub", 2, params);
    InCallableBody(header, body, "end sub");
    InParts(ps, 1, id);
    InParts(ps, 1, params);
    InParts(ps, 2, body);
    if FieldTruthy(attached) {
      InCallableHeader(header, body, "end sub", 3, Suffix(attached));
      InParts(ps, 1, Suffix(attached));
    }
  }

  lemma SubExpressionKeepsChildren(params: Doc, body: Doc, attached: Field)
    ensures Contains(SubExpression(params, body, attached), params)
    ensures Contains(SubExpression(params, body, attached), body)
    ensures FieldTruthy(attached) ==> Contains(SubExpression(params, body, attached), Suffix(attached))
  {
    var line := [Text("sub"), params];
    var header := Tail(line, attached);
    var c := Callable(header, body, "end sub");
    assert header[1] == params by { assert header[..2][1] == line[1]; }
    InCallableHeader(header, body, "end sub", 1, params);
    InCallableBody(header, body, "end sub");
    InParts(c, 0, params);
    InParts(c, 1, body);
    if FieldTruthy(attached) {
      InCallableHeader(header, body, "end sub", 2, Suffix(attached));
      InParts(c, 0, Suffix(attached));
    }
  }
}

=== FILE: strings.dfy ===
/** The string case conversions the printer relies on, over ASCII letters. */
module Strings {

  function UpperChar(c: char): char {
    if 'a' <= c <= 'z' then (c as int - 32) as char else c
  }

  function LowerChar(c: char): char {
    if 'A' <= c <= 'Z' then (c as int + 32) as char else c
  }

  /** `s.toUpperCase()` for ASCII text. */
  function Upper(s: string): (r: string)
    ensures |r| == |s|
    ensures forall i :: 0 <= i < |s| ==> r[i] == UpperChar(s[i])
  {
    seq(|s|, i requires 0 <= i < |s| => UpperChar(s[i]))
  }

  /** `s.toLowerCase()` for ASCII text. */
  function Lower(s: string): (r: string)
    ensures |r| == |s|
    ensures forall i :: 0 <= i < |s| ==> r[i] == LowerChar(s[i])
  {
    seq(|s|, i requires 0 <= i < |s| => LowerChar(s[i]))
  }

  /** A string equals its upper-case form exactly when it has no lower-case letter. */
  lemma UpperFixedIffNoLower(s: string)
    ensures Upper(s) == s <==> forall i :: 0 <= i < |s| ==> !('a' <= s[i] <= 'z')
  {
    if Upper(s) == s {
      forall i | 0 <= i < |s|
        ensures !('a' <= s[i] <= 'z')
      {
        assert Upper(s)[i] == s[i];
      }
    }
  }
}

=== FILE: visitor.dfy ===
/** `PrettierVisitor`: the generic dispatcher `visit`, which builds the keyed
    record of a node's visited children, and the table that sends each node
    kind to its formatter. */
module Visitor {
  import opened Wrappers
  import opened Ast
  import opened Docs
  import opened Config
  import opened Kinds
  import Strings
  import Comments
  import Merge
  import Layout

  /** What `visit` returns for a tagged node (`zipObject(keys, mapped)`): the
      registered slot names paired, in order, with their visited values. */
  datatype Record = Record(entries: seq<(string, Doc)>)

  /** Reading `key` from a record: `zipObject` keeps the last value written
      under a repeated key, and a key it never wrote reads as `undefined`. */
  function Slot(rec: Record, key: string): (r: Doc)
    ensures (forall i :: 0 <= i < |rec.entries| ==> rec.entries[i].0 != key) ==> r == Missing(Undefined)
    ensures (exists i :: 0 <= i < |rec.entries| && rec.entries[i].0 == key) ==>
      exists j :: 0 <= j < |rec.entries| && rec.entries[j] == (key, r)
        && forall i :: j < i < |rec.entries| ==> rec.entries[i].0 != key
    decreases |rec.entries|
  {
    var es := rec.entries;
    if |es| == 0 then Missing(Undefined)
    else if es[|es| - 1].0 == key then es[|es| - 1].1
    else Slot(Record(es[..|es| - 1]), key)
  }

  /** `visitorKeys[type]`, read through lodash `map`: an unregistered type
      has no keys. */
  function KeysFor(env: Env, tag: string): seq<string> {
    if tag in env.visitorKeys then env.visitorKeys[tag] else []
  }

  /** `shouldBeVisitor`: the tag is registered and is not written in capitals
      (upper-case tags are tokens, printed from their source text). */
  predicate ShouldBeVisitor(env: Env, tag: string) {
    tag in env.visitorKeys && Strings.Upper(tag) != tag
  }

  /** The value of `map` over an array when the callback may throw: the first
      exception, or every callback's value in order. */
  function Collect<T>(rs: seq<Result<T, Fault>>): (r: Result<seq<T>, Fault>)
    ensures r.Ok? <==> forall i :: 0 <= i < |rs| ==> rs[i].Ok?
    ensures r.Ok? ==> |r.value| == |rs| && forall i :: 0 <= i < |rs| ==> rs[i] == Ok(r.value[i])
    ensures r.Err? ==> exists i :: 0 <= i < |rs| && rs[i] == Err(r.error) && forall j :: 0 <= j < i ==> rs[j].Ok?
  {
    if |rs| == 0 then Ok([])
    else if rs[0].Err? then Err(rs[0].error)
    else
      var rest :- Collect(rs[1..]);
      Ok([rs[0].value] + rest)
  }

  /** Formatting one child node found in a slot or in an array slot: its own
      formatter when there is one (`undefined` when that formatter returns
      nothing); otherwise `undefined` with a warning when it should have
      one, and its raw source text when it should not. */
  function DispatchChild(env: Env, m: Node): (r: Result<Doc, Fault>)
    ensures KindOf(m.kind).None? && ShouldBeVisitor(env, m.kind) ==> r == Ok(Missing(Undefined))
    ensures KindOf(m.kind).None? && !ShouldBeVisitor(env, m.kind) ==> r == Ok(Text(m.source))
    ensures KindOf(m.kind).Some? && ReturnsNothing(KindOf(m.kind).value) && r.Ok? ==> r.value == Missing(Undefined)
    ensures KindOf(m.kind).Some? && Format(env, KindOf(m.kind).value, m).Ok? ==>
      r == Ok(Format(env, KindOf(m.kind).value, m).value.GetOr(Missing(Undefined)))
    ensures KindOf(m.kind).Some? && Format(env, KindOf(m.kind).value, m).Err? ==>
      r == Err(Format(env, KindOf(m.kind).value, m).error)
    decreases m, 6
  {
    match KindOf(m.kind)
    case Some(k) =>
      var o :- Format(env, k, m);
      Ok(o.GetOr(Missing(Undefined)))
    case None =>
      if ShouldBeVisitor(env, m.kind) then Ok(Missing(Undefined)) else Ok(Text(m.source))
  }

  /** The visited value of the slot `key` of `n`: a falsy value unchanged; a
      tagged child dispatched; an array mapped element by element; anything
      else (a truthy string, an untagged object) `undefined`. */
  function VisitSlot(env: Env, n: Node, key: string): (r: Result<Doc, Fault>)
    ensures !FieldTruthy(Get(n, key)) ==> r == Ok(RawValue(Get(n, key)))
    ensures Get(n, key).Str? && Get(n, key).s != "" ==> r == Ok(Missing(Undefined))
    ensures Get(n, key).Child? && Get(n, key).node.kind == "" ==> r == Ok(Missing(Undefined))
    ensures Get(n, key).Child? && Get(n, key).node.kind != "" ==> r == DispatchChild(env, Get(n, key).node)
    ensures Get(n, key).Children? && r.Ok? ==>
      r.value.List? && |r.value.elems| == |Get(n, key).nodes|
      && forall i :: 0 <= i < |Get(n, key).nodes| ==> DispatchChild(env, Get(n, key).nodes[i]) == Ok(r.value.elems[i])
    ensures Get(n, key).Children? ==>
      (r.Ok? <==> forall i :: 0 <= i < |Get(n, key).nodes| ==> DispatchChild(env, Get(n, key).nodes[i]).Ok?)
    ensures Get(n, key).Children? && r.Err? ==>
      exists i :: 0 <= i < |Get(n, key).nodes| && DispatchChild(env, Get(n, key).nodes[i]) == Err(r.error)
    decreases n, 0
  {
    match Get(n, key)
    case Absent(v) => Ok(Missing(v))
    case Str(s) => if s == "" then Ok(Text("")) else Ok(Missing(Undefined))
    case Child(m) => if m.kind == "" then Ok(Missing(Undefined)) else DispatchChild(env, m)
    case Children(ms) =>
      var ds :- Collect(seq(|ms|, i requires 0 <= i < |ms| => DispatchChild(env, ms[i])));
      Ok(List(ds))
  }

  /** `visit`: `null` for a node without a tag; otherwise the record of the
      node's registered slots, each paired with its visited value. */
  function Visit(env: Env, n: Node): (r: Result<Option<Record>, Fault>)
    ensures n.kind == "" ==> r == Ok(None)
    ensures n.kind != "" && r.Ok? ==> r.value.Some? && |r.value.value.entries| == |KeysFor(env, n.kind)|
    ensures n.kind != "" && r.Ok? ==> forall i :: 0 <= i < |KeysFor(env, n.kind)| ==>
      r.value.value.entries[i].0 == KeysFor(env, n.kind)[i]
      && VisitSlot(env, n, KeysFor(env, n.kind)[i]) == Ok(r.value.value.entries[i].1)
    ensures n.kind != "" ==>
      (r.Ok? <==> forall i :: 0 <= i < |KeysFor(env, n.kind)| ==> VisitSlot(env, n, KeysFor(env, n.kind)[i]).Ok?)
    ensures n.kind != "" && r.Err? ==> exists key :: key in KeysFor(env, n.kind) && VisitSlot(env, n, key).Err?
    ensures n.kind != "" && r.Err? ==>
      exists i :: 0 <= i < |KeysFor(env, n.kind)| && VisitSlot(env, n, KeysFor(env, n.kind)[i]) == Err(r.error)
    decreases n, 1
  {
    if n.kind == "" then Ok(None)
    else
      var keys := KeysFor(env, n.kind);
      var values :- Collect(seq(|keys|, i requires 0 <= i < |keys| => VisitSlot(env, n, keys[i])));
      Ok(Some(Record(seq(|keys|, i requires 0 <= i < |keys| => (keys[i], values[i])))))
  }

  /** `const { … } = this.visit(ctx)`: destructuring the `null` of an
      untagged node throws. */
  function Destructure(env: Env, n: Node): (r: Result<Record, Fault>)
    ensures n.kind == "" ==> r == Err(NoRecord)
    ensures n.kind != "" ==> (r.Ok? <==> Visit(env, n).Ok?)
    ensures n.kind != "" && r.Err? ==> Visit(env, n) == Err(r.error)
    ensures r.Ok? ==> Visit(env, n) == Ok(Some(r.value))
    decreases n, 2
  {
    var v :- Visit(env, n);
    if v.None? then Err(NoRecord) else Ok(v.value)
  }

  /** `binary(ctx)`. */
  function Binary(env: Env, n: Node): (r: Result<Doc, Fault>)
    ensures n.kind == "" ==> r == Err(NoRecord)
    ensures r.Ok? <==> Destructure(env, n).Ok?
    ensures r.Err? ==> r.error == Destructure(env, n).error
    decreases n, 3
  {
    var rec :- Destructure(env, n);
    Ok(Merge.Binary(Slot(rec, "left"), Slot(rec, "right"), Slot(rec, "operator")))
  }

  /** `Identifier(ctx)`. */
  function Identifier(env: Env, n: Node): (r: Result<Doc, Fault>)
    ensures n.kind == "" ==> r == Err(NoRecord)
    ensures r.Ok? <==> Destructure(env, n).Ok?
    ensures r.Err? ==> r.error == Destructure(env, n).error
    ensures r.Ok? ==> r.value == Group(Concat([RawValue(Get(n, "name")), Slot(Destructure(env, n).value, "asType")]))
    decreases n, 3
  {
    var rec :- Destructure(env, n);
    Ok(Layout.Identifier(Get(n, "name"), Slot(rec, "asType")))
  }

  /** `this.Identifier(ctx.counter)` on a raw field: only a tagged node has a
      record to destructure. */
  function IdentifierOf(env: Env, n: Node, key: string): (r: Result<Doc, Fault>)
    ensures !Get(n, key).Child? ==> r == Err(NoRecord)
    ensures Get(n, key).Child? ==> (r.Ok? <==> Destructure(env, Get(n, key).node).Ok?)
    ensures Get(n, key).Child? && r.Err? ==> r.error == Destructure(env, Get(n, key).node).error
    ensures Get(n, key).Child? && r.Ok? ==>
      r.value == Group(Concat([RawValue(Get(Get(n, key).node, "name")), Slot(Destructure(env, Get(n, key).node).value, "asType")]))
    decreases n, 3
  {
    match Get(n, key)
    case Child(m) => Identifier(env, m)
    case _ => Err(NoRecord)
  }

  /** `this[k](n)`: the formatter method `k` applied to the node `n`. `None`
      is the `undefined` of a formatter that returns nothing. */
  function Format(env: Env, k: Kind, n: Node): (r: Result<Option<Doc>, Fault>)
    ensures r.Ok? ==> (r.value.None? <==> ReturnsNothing(k))
    ensures ReadsRaw(k) ==> r.Ok?
    ensures ReadsRaw(k) ==> r == Ok(Some(FromFields(env, k, n)))
    ensures !ReadsRaw(k) && n.kind == "" ==> r == Err(NoRecord)
    decreases n, 5
  {
    if ReadsRaw(k) then
      assert !ReturnsNothing(k);
      Ok(Some(FromFields(env, k, n)))
    else if SpecialCased(k) then
      assert !ReturnsNothing(k);
      FormatSpecial(env, k, n)
    else
      var rec :- Destructure(env, n);
      Ok(FromRecord(env, k, n, rec))
  }

  /** The formatters that read the node's fields without visiting it. */
  function FromFields(env: Env, k: Kind, n: Node): (r: Doc)
    requires ReadsRaw(k)
    ensures k == STRING_LITERAL ==> r == Text(n.source)
    ensures k == UnTypedIdentifier ==> (Truthy(r) <==> FieldTruthy(Get(n, "name")))
    ensures k == Literal ==> (Truthy(r) <==> FieldTruthy(Get(n, "value")))
    ensures k == UnTypedIdentifier ==> r == RawValue(Get(n, "name"))
    ensures k == Literal ==> r == RawValue(Get(n, "value"))
    ensures k == Kind.TypeAnnotation ==> r == Layout.TypeAnnotation(env.capitalize, Get(n, "value"))
    ensures k == Kind.Comment ==> r.Group? && r.contents.Concat? && |r.contents.parts| == 2
    ensures k == Kind.Comment && FieldTruthy(Get(n, "value")) ==> r.contents.parts == [Text("' "), RawValue(Get(n, "value"))]
    ensures k == Kind.Comment && !FieldTruthy(Get(n, "value")) ==>
      r.contents.parts == [Text("' "), RawValue(Get(n, "trailingComments"))]
    ensures k == NextStatement || k == StopStatement ==>
      r.Concat? && 1 <= |r.parts| && r.parts[0] == Text(if k == NextStatement then "next" else "stop")
    ensures k == NextStatement || k == StopStatement ==>
      (FieldTruthy(Get(n, "trailingComments")) <==> |r.parts| == 2)
  {
    var trailing := Get(n, "trailingComments");
    match k
    case UnTypedIdentifier => RawValue(Get(n, "name"))
    case STRING_LITERAL => Text(n.source)
    case Comment => Comments.Comment(Get(n, "value"), trailing)
    case Literal => RawValue(Get(n, "value"))
    case NextStatement => Layout.Keyword("next", trailing)
    case StopStatement => Layout.Keyword("stop", trailing)
    case TypeAnnotation => Layout.TypeAnnotation(env.capitalize, Get(n, "value"))
  }

  /** The formatters that call `binary` or `Identifier`, or that can throw
      after destructuring. */
  predicate SpecialCased(k: Kind) {
    k == AdditionExpression || k == AssignmentExpression || k == MultiplicationExpression
    || k == LogicExpression || k == RelationExpression || k == ConditionalConst
    || k == Kind.Identifier || k == ForStatement || k == UnaryExpression
  }

  function FormatSpecial(env: Env, k: Kind, n: Node): (r: Result<Option<Doc>, Fault>)
    requires SpecialCased(k)
    ensures r.Ok? ==> r.value.Some?
    ensures n.kind == "" ==> r == Err(NoRecord)
    decreases n, 4
  {
    if k == ConditionalConst then
      var d :- Binary(env, n);
      Ok(Some(Layout.ConditionalConst(d)))
    else if k == Kind.Identifier then
      var d :- Identifier(env, n);
      Ok(Some(d))
    else if k == ForStatement then
      var rec :- Destructure(env, n);
      var counter :- IdentifierOf(env, n, "counter");
      Ok(Some(Layout.For(counter, Slot(rec, "init"), Slot(rec, "test"), Slot(rec, "update"), Slot(rec, "body"),
        Get(n, "trailingComments"))))
    else if k == UnaryExpression then
      var rec :- Destructure(env, n);
      var d :- Layout.Unary(Slot(rec, "operator"), Slot(rec, "argument"), Get(n, "trailingComments"));
      Ok(Some(d))
    else
      var d :- Binary(env, n);
      Ok(Some(d))
  }

  /** The formatters that build their document from the record alone. */
  function FromRecord(env: Env, k: Kind, n: Node, rec: Record): (r: Option<Doc>)
    requires !ReadsRaw(k) && !SpecialCased(k)
    ensures r.None? <==> ReturnsNothing(k)
  {
    if ReturnsNothing(k) then None
    else if k.Program? || k.BlockStatement? || k.EmptyStatement? then Some(Blocks(k, rec))
    else if k.IfStatement? || k.ElseIfStatement? || k.ElseStatement?
      || k.ConditionalIfStatement? || k.ConditionalElseIfStatement? || k.ConditionalElseStatement? then
      Some(Conditionals(k, n, rec))
    else if k.ForEachStatement? || k.WhileStatement? || k.FunctionDeclaration? || k.FunctionExpression?
      || k.SubDeclaration? || k.SubExpression? then
      Some(Compounds(k, n, rec))
    else if k.PrintStatement? || k.ReturnStatement? || k.LibraryStatement? || k.ObjectExpression? then
      Some(Statements(env, k, n, rec))
    else if k.ParameterList? || k.ParenthesisExpression? || k.ArrayElement? || k.ArrayExpression?
      || k.CallExpression? then
      Some(Expressions(k, n, rec))
    else
      Some(Members(k, n, rec))
  }

  function Blocks(k: Kind, rec: Record): Doc
    requires k.Program? || k.BlockStatement? || k.EmptyStatement?
  {
    if k.EmptyStatement? then Comments.EmptyStatement(Slot(rec, "trailingComments"))
    else Layout.Block(Slot(rec, "body"))
  }

  function Conditionals(k: Kind, n: Node, rec: Record): Doc
    requires k.IfStatement? || k.ElseIfStatement? || k.ElseStatement?
      || k.ConditionalIfStatement? || k.ConditionalElseIfStatement? || k.ConditionalElseStatement?
  {
    var trailing := Get(n, "trailingComments");
    if k.IfStatement? then
      Layout.If("if", "end if", Slot(rec, "test"), Slot(rec, "consequent"), Slot(rec, "alternate"), trailing)
    else if k.ConditionalIfStatement? then
      Layout.If("#if", "#end if", Slot(rec, "test"), Slot(rec, "consequent"), Slot(rec, "alternate"), trailing)
    else if k.ElseIfStatement? then Layout.ElseIf("else if", Slot(rec, "test"), Slot(rec, "body"), trailing)
    else if k.ConditionalElseIfStatement? then Layout.ElseIf("#else if", Slot(rec, "test"), Slot(rec, "body"), trailing)
    else if k.ElseStatement? then Layout.Else("else", Slot(rec, "body"), trailing)
    else Layout.Else("#else", Slot(rec, "body"), trailing)
  }

  function Compounds(k: Kind, n: Node, rec: Record): Doc
    requires k.ForEachStatement? || k.WhileStatement? || k.FunctionDeclaration? || k.FunctionExpression?
      || k.SubDeclaration? || k.SubExpression?
  {
    var trailing := Get(n, "trailingComments");
    if k.ForEachStatement? then
      Layout.ForEach(Slot(rec, "counter"), Slot(rec, "countExpression"), Slot(rec, "body"), trailing)
    else if k.WhileStatement? then Layout.While(Slot(rec, "test"), Slot(rec, "body"), trailing)
    else if k.FunctionDeclaration? then
      Layout.FunctionDeclaration(Slot(rec, "id"), Slot(rec, "params"), Slot(rec, "ReturnType"), Slot(rec, "body"))
    else if k.FunctionExpression? then
      Layout.FunctionExpression(Slot(rec, "params"), Slot(rec, "ReturnType"), Slot(rec, "body"))
    else if k.SubDeclaration? then
      Layout.SubDeclaration(Slot(rec, "id"), Slot(rec, "params"), Slot(rec, "body"), trailing)
    else Layout.SubExpression(Slot(rec, "params"), Slot(rec, "body"), trailing)
  }

  function Statements(env: Env, k: Kind, n: Node, rec: Record): Doc
    requires k.PrintStatement? || k.ReturnStatement? || k.LibraryStatement? || k.ObjectExpression?
  {
    var trailing := Get(n, "trailingComments");
    if k.PrintStatement? then Layout.Print(env.shortPrint, Slot(rec, "value"), trailing)
    else if k.ReturnStatement? then Layout.Return(Slot(rec, "argument"), trailing)
    else if k.LibraryStatement? then Layout.Library(Slot(rec, "path"))
    else Layout.Object(RawLength(Get(n, "properties")), Slot(rec, "properties"), trailing)
  }

  function Expressions(k: Kind, n: Node, rec: Record): Doc
    requires k.ParameterList? || k.ParenthesisExpression? || k.ArrayElement? || k.ArrayExpression? || k.CallExpression?
  {
    if k.ParameterList? then Layout.ParameterList(Slot(rec, "args"))
    else if k.ParenthesisExpression? then Layout.Parenthesis(Slot(rec, "expression"))
    else if k.ArrayElement? then Layout.ArrayElement(Slot(rec, "value"), Get(n, "trailingComments"))
    else if k.ArrayExpression? then Layout.ArrayExpression(Slot(rec, "elements"))
    else Layout.Call(Slot(rec, "callee"), Slot(rec, "args"))
  }

  function Members(k: Kind, n: Node, rec: Record): Doc
    requires k.DotMemberExpression? || k.MemberExpression? || k.Parameter? || k.Property? || k.Arguments?
  {
    if k.Arguments? then Layout.Arguments(Slot(rec, "param"))
    else if k.Property? then Layout.Property(Slot(rec, "key"), Slot(rec, "value"))
    else if k.Parameter? then Layout.Parameter(Slot(rec, "name"), Slot(rec, "TypeAnnotation"), Slot(rec, "value"))
    else if k.MemberExpression? then Layout.Member(Slot(rec, "object"), Slot(rec, "properties"))
    else Layout.DotMember(Slot(rec, "operator"), Slot(rec, "right"))
  }
}

=== FILE: visitor_props.dfy ===
/** Properties of the dispatcher: what a visited record holds, which children
    fall through to their source text, and how the configuration and the raw
    fields reach the formatters. */
module VisitorProperties {
  import opened Wrappers
  import opened Ast
  import opened Docs
  import opened Config
  import opened Kinds
  import Strings
  import Layout
  import Merge
  import opened Visitor

  /** The record of a tagged node maps each registered slot name to that
      slot's visited value, and every other name to `undefined`. */
  lemma VisitRecordLookup(env: Env, n: Node, key: string)
    requires n.kind != "" && Visit(env, n).Ok?
    ensures key in KeysFor(env, n.kind) ==> VisitSlot(env, n, key) == Ok(Slot(Visit(env, n).value.value, key))
    ensures key !in KeysFor(env, n.kind) ==> Slot(Visit(env, n).value.value, key) == Missing(Undefined)
  {
    var keys := KeysFor(env, n.kind);
    var rec := Visit(env, n).value.value;
    if key in keys {
      var i :| 0 <= i < |keys| && keys[i] == key;
      assert rec.entries[i].0 == key;
      var j :| 0 <= j < |rec.entries| && rec.entries[j] == (key, Slot(rec, key));
      assert keys[j] == key;
    } else {
      forall i | 0 <= i < |rec.entries|
        ensures rec.entries[i].0 != key
      {
        assert rec.entries[i].0 == keys[i];
      }
    }
  }

  /** `shouldBeVisitor` holds exactly for registered tags that contain a
      lower-case letter. */
  lemma ShouldBeVisitorIff(env: Env, tag: string)
    ensures ShouldBeVisitor(env, tag) <==> tag in env.visitorKeys && exists i :: 0 <= i < |tag| && 'a' <= tag[i] <= 'z'
  {
    Strings.UpperFixedIffNoLower(tag);
  }

  /** A token child (an all-capitals tag without a formatter, such as an
      operator or a literal) is printed as its raw source text, whatever the
      registry holds. */
  lemma TokenPassesThrough(env: Env, m: Node)
    requires KindOf(m.kind).None?
    requires forall i :: 0 <= i < |m.kind| ==> !('a' <= m.kind[i] <= 'z')
    ensures DispatchChild(env, m) == Ok(Text(m.source))
  {
    ShouldBeVisitorIff(env, m.kind);
  }

  /** A slot holding a token child is visited to the token's source text. */
  lemma TokenSlot(env: Env, n: Node, key: string)
    requires Get(n, key).Child? && Get(n, key).node.kind != ""
    requires KindOf(Get(n, key).node.kind).None?
    requires forall i :: 0 <= i < |Get(n, key).node.kind| ==> !('a' <= Get(n, key).node.kind[i] <= 'z')
    ensures VisitSlot(env, n, key) == Ok(Text(Get(n, key).node.source))
  {
    TokenPassesThrough(env, Get(n, key).node);
  }

  /** A formatter that is neither raw nor special builds its document from
      the destructured record alone, and fails exactly when destructuring does. */
  lemma FormatUsesRecord(env: Env, k: Kind, n: Node)
    requires !ReadsRaw(k) && !SpecialCased(k)
    ensures Destructure(env, n).Ok? ==> Format(env, k, n) == Ok(FromRecord(env, k, n, Destructure(env, n).value))
    ensures Destructure(env, n).Err? ==> Format(env, k, n) == Err(Destructure(env, n).error)
  {
  }

  /** A print statement starts with `?` exactly when the options handed to the
      printer have a `shortPrint` key, and with `print` otherwise. */
  lemma PrintTokenFollowsOptions(options: map<string, bool>, visitorKeys: map<string, seq<string>>,
                                 capitalize: Field -> string, n: Node, rec: Record)
    ensures var r := FromRecord(NewEnv(options, visitorKeys, capitalize), PrintStatement, n, rec);
      && r.Some? && r.value.Group? && r.value.contents.Join? && r.value.contents.docs.List?
      && |r.value.contents.docs.elems| >= 2
      && (r.value.contents.docs.elems[0] == Text("?") <==> "shortPrint" in options)
      && (r.value.contents.docs.elems[0] == Text("print") <==> "shortPrint" !in options)
  {
    var env := NewEnv(options, visitorKeys, capitalize);
    assert FromRecord(env, PrintStatement, n, rec) == Some(Statements(env, PrintStatement, n, rec));
  }

  /** An object literal's separator depends on the raw number of properties
      in the node, not on what visiting them produced. */
  lemma ObjectSeparatorFromRawCount(env: Env, n: Node, rec: Record)
    ensures var r := FromRecord(env, ObjectExpression, n, rec);
      && r.Some? && r.value.Concat? && |r.value.parts| == 4
      && r.value.parts[2] == (if RawLength(Get(n, "properties")) < 3 then SoftLine else HardLine)
  {
    assert FromRecord(env, ObjectExpression, n, rec) == Some(Statements(env, ObjectExpression, n, rec));
  }

  /** An `EmptyStatement` node whose record holds no comment prints as the
      empty string, the marker a block drops. */
  lemma EmptyStatementNodeIsBlank(env: Env, n: Node, rec: Record)
    requires !Truthy(Slot(rec, "trailingComments"))
    ensures FromRecord(env, EmptyStatement, n, rec) == Some(Text(""))
  {
    assert FromRecord(env, EmptyStatement, n, rec) == Some(Blocks(EmptyStatement, rec));
  }

  /** `binary` on a node whose record has one operator per right operand
      prints the left operands, then each operator followed by its right
      operand, in source order. */
  lemma BinaryNodeTokenOrder(env: Env, n: Node)
    requires Destructure(env, n).Ok?
    requires |AsArray(Slot(Destructure(env, n).value, "operator"))| == |AsArray(Slot(Destructure(env, n).value, "right"))|
    ensures Visitor.Binary(env, n).Ok?
    ensures var d := Visitor.Binary(env, n).value;
      && d.Group? && d.contents.Join? && d.contents.sep == Text(" ") && d.contents.docs.List?
      && d.contents.docs.elems == AsArray(Slot(Destructure(env, n).value, "left"))
           + Merge.Pairs(AsArray(Slot(Destructure(env, n).value, "operator")), AsArray(Slot(Destructure(env, n).value, "right")))
  {
    var rec := Destructure(env, n).value;
    Merge.BinaryTokenOrder(Slot(rec, "left"), Slot(rec, "right"), Slot(rec, "operator"));
  }

  /** The five binary formatters return exactly what `binary` returns, and
      throw exactly what it throws. */
  lemma BinaryKindsFormatWithBinary(env: Env, k: Kind, n: Node)
    requires k == AdditionExpression || k == AssignmentExpression || k == MultiplicationExpression
      || k == LogicExpression || k == RelationExpression
    ensures Visitor.Binary(env, n).Ok? ==> Format(env, k, n) == Ok(Some(Visitor.Binary(env, n).value))
    ensures Visitor.Binary(env, n).Err? ==> Format(env, k, n) == Err(Visitor.Binary(env, n).error)
  {
    assert Format(env, k, n) == FormatSpecial(env, k, n);
  }

  /** `#const` prints the keyword and the operator chain `binary` builds. */
  lemma ConditionalConstFormat(env: Env, n: Node)
    ensures Visitor.Binary(env, n).Ok? ==>
      Format(env, ConditionalConst, n) == Ok(Some(Group(Join(Text(" "), List([Text("#const"), Visitor.Binary(env, n).value])))))
    ensures Visitor.Binary(env, n).Err? ==> Format(env, ConditionalConst, n) == Err(Visitor.Binary(env, n).error)
  {
    assert Format(env, ConditionalConst, n) == FormatSpecial(env, ConditionalConst, n);
  }

  /** An `Identifier` node prints its raw name followed by its visited type
      suffix, and throws only when its own record cannot be destructured. */
  lemma IdentifierKindFormat(env: Env, n: Node)
    ensures Destructure(env, n).Ok? ==>
      Format(env, Kind.Identifier, n) == Ok(Some(Group(Concat([RawValue(Get(n, "name")), Slot(Destructure(env, n).value, "asType")]))))
    ensures Destructure(env, n).Err? ==> Format(env, Kind.Identifier, n) == Err(Destructure(env, n).error)
  {
    assert Format(env, Kind.Identifier, n) == FormatSpecial(env, Kind.Identifier, n);
  }

  /** The `for` counter is not visited with the other slots: it is formatted
      by `Identifier` from the raw `counter` field. A missing or untyped
      counter throws; otherwise the header begins `for counter = init to test`. */
  lemma ForCounterThroughIdentifier(env: Env, n: Node)
    requires Destructure(env, n).Ok?
    ensures !Get(n, "counter").Child? ==> Format(env, ForStatement, n) == Err(NoRecord)
    ensures IdentifierOf(env, n, "counter").Err? ==> Format(env, ForStatement, n) == Err(IdentifierOf(env, n, "counter").error)
    ensures IdentifierOf(env, n, "counter").Ok? ==>
      var rec := Destructure(env, n).value;
      && Format(env, ForStatement, n).Ok? && Format(env, ForStatement, n).value.Some?
      && var d := Format(env, ForStatement, n).value.value;
      && d.Concat? && |d.parts| >= 2 && d.parts[1].Group? && d.parts[1].contents.Join? && d.parts[1].contents.docs.List?
      && |d.parts[1].contents.docs.elems| >= 6
      && d.parts[1].contents.docs.elems[..6]
         == [Text("for"), IdentifierOf(env, n, "counter").value, Text("="), Slot(rec, "init"), Text("to"), Slot(rec, "test")]
    ensures IdentifierOf(env, n, "counter").Ok? ==>
      var rec := Destructure(env, n).value;
      FormatSpecial(env, ForStatement, n)
      == Ok(Some(Layout.For(IdentifierOf(env, n, "counter").value, Slot(rec, "init"), Slot(rec, "test"),
           Slot(rec, "update"), Slot(rec, "body"), Get(n, "trailingComments"))))
  {
    assert Format(env, ForStatement, n) == FormatSpecial(env, ForStatement, n);
  }

  /** A unary expression with no operator prints its operand alone, and one
      whose truthy operator is not a string throws. */
  lemma UnaryKindFormat(env: Env, n: Node)
    requires Destructure(env, n).Ok?
    ensures !Truthy(Slot(Destructure(env, n).value, "operator")) ==>
      Format(env, UnaryExpression, n) == Ok(Some(Group(Slot(Destructure(env, n).value, "argument"))))
    ensures Truthy(Slot(Destructure(env, n).value, "operator")) && !Slot(Destructure(env, n).value, "operator").Text? ==>
      Format(env, UnaryExpression, n) == Err(NotAString)
    ensures var op := Slot(Destructure(env, n).value, "operator");
      op.Text? && Truthy(op) ==>
        Format(env, UnaryExpression, n)
        == Ok(Some(Layout.Unary(op, Slot(Destructure(env, n).value, "argument"), Get(n, "trailingComments")).value))
  {
    assert Format(env, UnaryExpression, n) == FormatSpecial(env, UnaryExpression, n);
  }
}

=== FILE: wrappers.dfy ===
/** `Option` stands for a lookup or a method result that may come back
    `undefined`; `Result` for a call that may throw a `TypeError` instead. */
module Wrappers {

  /** `None` is the `undefined` case (no formatter found, nothing returned). */
  datatype Option<+T> = None | Some(value: T) {

    /** The value found, with `undefined` replaced by `default`. */
    function GetOr(default: T): T {
      match this
      case Some(v) => v
      case None => default
    }
  }

  /** A returned value, or the error thrown; `:-` hands the error on unchanged. */
  datatype Result<+T, +E> = Ok(value: T) | Err(error: E) {

    predicate IsFailure() {
      Err?
    }

    function PropagateFailure<U>(): Result<U, E>
      requires Err?
    {
      Err(error)
    }

    function Extract(): T
      requires Ok?
    {
      value
    }
  }
}
